=== FILE: README.md ===
# ShailajaPrinters contact and consent logic, in Dafny

This project models the decision logic of the ShailajaPrinters website in Dafny. There are four pieces:

- **The contact-form Lambda handler** (`exports.handler`). It takes an API Gateway event and gives a response:
  - it answers the CORS preflight;
  - it reads the JSON body and checks the required fields and the `website` honeypot;
  - it builds the SES e-mail (subject, reply-to, HTML and text bodies);
  - it classifies the outcome as 200, 400 or 500.
- **The cookie-consent manager** (`CookieConsent`). It holds a three-flag preference record and offers accept-all, reject-all and custom settings. It persists the record through `setCookie`/`getCookie` over the `document.cookie` string and applies it to the analytics and marketing switches.
- **The Vue contact form** (`app.js`). This covers `validEmail`, `submitForm` and the `?sent=` redirect alert in `mounted`.
- **The plain-script contact form** (`contact-form.js`). This covers input normalisation, the ordered checks (honeypot, then required fields, then e-mail shape), and the mapping of the handler's answer to an alert and a form reset.

Everything is stated over immutable datatypes and pure functions:

- Strings are `seq<char>`.
- A missing JavaScript value is `Option.None`.
- The outcome of `JSON.parse` / `response.json()` is `Parsed` = `Unparsable | ParsedNull | Parsed(v)`.
- Things outside the code are parameters:
  - the SES send (`sendSucceeds`);
  - the clock (`nowMs`, plus a stand-in for `toUTCString`);
  - the "Received" timestamp text;
  - `decodeURIComponent`, which returns `None` on a malformed escape;
  - what `fetch` returned.

Modules:

- `Js`: JavaScript white space, `trim`, `startsWith`, `includes`, `indexOf`, `split`/`join` on one character, and `Option`/`Parsed`. Each has a reference meaning.
- `EmailRegex`: the regular expression `^[^@\s]+@[^@\s]+\.[^@\s]+$` as a ghost reference predicate, and an executable test proved equivalent to it.
- `Ui`: the alert both pages show.
- `Handler`: `index.js`.
- `Cookies`: `setCookie` and `getCookie`.
- `CookieConsent`: the rest of `cookie-consent.js`.
- `VueApp`: `app.js`.
- `ContactForm`: `contact-form.js`.
- `EndToEnd`: `contact-form.js` talking to `index.js`.

## Model

| member | source | states |
|---|---|---|
| Js.TrimMeaning | assets/js/cookie-consent.js:159 | `trim` cuts exactly the white space at both ends: the result occurs in the input with only white space before and after it, and it neither starts nor ends with white space |
| Js.TrimStartMeaning | assets/js/cookie-consent.js:159 | cutting leading white space leaves a suffix, removes only white space, and stops at a non-space character |
| Js.TrimEndMeaning | assets/js/cookie-consent.js:159 | cutting trailing white space leaves a prefix, removes only white space, and stops after a non-space character |
| Js.TrimOfIsUnique | assets/js/cookie-consent.js:159 | any string meeting the reference meaning of `trim` is the computed trim, so the reference pins the result down |
| Js.TrimIdempotent | assets/js/contact-form.js:57-62 | trimming a trimmed value changes nothing |
| Js.Includes | assets/js/app.js:76 | `includes` holds exactly when the pattern occurs at some position |
| Js.IndexOf | assets/js/cookie-consent.js:157 | the index found holds the character and no earlier position does |
| Js.Count | assets/js/app.js:48 | the count is zero exactly when the character is absent, and never exceeds the length |
| Js.Split | assets/js/cookie-consent.js:157 | `split` gives at least one piece, no piece holds the separator, and joining the pieces gives back the input |
| Js.SplitJoin | assets/js/cookie-consent.js:157 | splitting undoes joining pieces that do not hold the separator |
| EmailRegex.TestIsPattern | assets/js/app.js:48 | the executable check (exactly one `@`, no white space, non-empty local part, a `.` strictly inside the domain) holds exactly when the regular expression matches |
| Handler.Handle | amplify/backend/function/contactFormHandler/src/index.js:4-170 | every response carries the three CORS headers, and the status is 200, 400 or 500. A preflight gives 200 with an empty body and no send. Missing fields give 400 `Missing required fields` and no send, whatever the honeypot holds. A filled honeypot on a complete submission gives 200 `success:true` and no send. An unreadable or null body gives 500. Exactly one send happens, carrying the built e-mail, exactly for accepted submissions, and its outcome decides between 200 and 500 |
| Handler.StatusClassification | amplify/backend/function/contactFormHandler/src/index.js:13-169 | each status, in both directions: 400 exactly for a readable, incomplete submission; 500 exactly for an unreadable body or a failed send; 200 for the preflight, the honeypot or a successful send |
| Handler.PreflightIgnoresBody | amplify/backend/function/contactFormHandler/src/index.js:13-19 | the preflight answer does not depend on the body or on the mail service |
| Handler.SendOutcomeOnlyMattersWhenSent | amplify/backend/function/contactFormHandler/src/index.js:147-169 | for a submission that is not sent, the mail service's behaviour does not change the answer |
| Handler.TextAndObjectAgree | amplify/backend/function/contactFormHandler/src/index.js:23 | a JSON text body and the object it parses to are handled alike |
| Handler.EnquiryType | amplify/backend/function/contactFormHandler/src/index.js:99 | the enquiry type is the `subject` whenever that is non-empty and `General Enquiry` when it is empty, so it is never empty |
| Handler.HtmlLineBreaks | amplify/backend/function/contactFormHandler/src/index.js:104 | the HTML message contains no line feed, grows by three characters per line feed, and equals the message when it had none |
| Handler.HtmlLineBreaksAppend | amplify/backend/function/contactFormHandler/src/index.js:104 | the replacement works piecewise over concatenation, so it touches nothing but line feeds |
| Handler.HtmlLineBreaksRoundTrip | amplify/backend/function/contactFormHandler/src/index.js:104 | for a message without `<`, turning each `<br>` back into a line feed restores the message, so nothing else changed |
| Handler.HtmlFields | amplify/backend/function/contactFormHandler/src/index.js:86-106 | the HTML fields are name and e-mail first, then the phone row iff the phone is non-empty, then the company row iff the company is non-empty, then enquiry type and message, and no other rows. The phone and company rows carry their values. Captions are distinct, and the message cell is the message with every line feed turned into `<br>` |
| Handler.TextLines | amplify/backend/function/contactFormHandler/src/index.js:120-139 | the text template is a list of 20 lines, joined with line feeds into the text body (more lines result when a field holds a line feed). The phone and company lines are non-empty exactly when those fields are. The enquiry line is the enquiry type, and the message line is the message verbatim |
| Handler.TextBodyCarries | amplify/backend/function/contactFormHandler/src/index.js:125-134 | the plain-text body contains the message, and contains the `Phone:` / `Company:` entries when those fields are given |
| Handler.BuildEmail | amplify/backend/function/contactFormHandler/src/index.js:50-145 | fixed source and destination. Reply-to is exactly `name <email>`. The subject and the HTML enquiry field use the enquiry type. The HTML body is the rows of `HtmlFields` with the received time, and the text body is the joined template of `TextLines` |
| Handler.EmailCarries | amplify/backend/function/contactFormHandler/src/index.js:95-134 | the built e-mail carries the message verbatim in its text body. Its HTML message row is the message with every line feed turned into `<br>`, and that row holds no line feed. The phone and company appear in both bodies when given, and the HTML body has no such row when they are empty. The subject, the HTML enquiry row and the text enquiry line carry one enquiry type |
| Cookies.ExpiryMs | assets/js/cookie-consent.js:149-150 | the expiry lies `days` × 86,400,000 ms after the clock reading |
| Cookies.SetCookie | assets/js/cookie-consent.js:148-153 | the cookie text splits on `;` into exactly `name=value`, `expires=<UTC text of the expiry>`, `path=/`, `SameSite=Lax` when none of its parts holds a `;` |
| Cookies.Lookup | assets/js/cookie-consent.js:158-164 | the result is absent iff no trimmed entry starts with `name=`. Otherwise it is the remainder of the first such entry |
| Cookies.GetCookieMeaning | assets/js/cookie-consent.js:155-165 | `getCookie(name)` splits the cookie string on `;`. It gives nothing iff no trimmed entry starts with `name=`, and otherwise the remainder of the first such entry |
| Cookies.GetSetRoundTrip | assets/js/cookie-consent.js:148-165 | reading a cookie just written gives back its value, for a name without `;` or leading white space and a value without `;` or trailing white space |
| CookieConsent.EncodePrefs | assets/js/cookie-consent.js:100 | the stored record text starts with `{`, ends with `}` and holds no `;`, so it survives the cookie round trip |
| CookieConsent.DecodePrefs | assets/js/cookie-consent.js:24 | whatever the parser accepts is exactly the stored text of the record it returns |
| CookieConsent.DecodeEncode | assets/js/cookie-consent.js:24 | parsing the stored text of a record gives that record |
| CookieConsent.Apply | assets/js/cookie-consent.js:104-136 | analytics and marketing are enabled exactly as the flags say. The `ga-disable` flag is set when analytics is off and is never cleared. Nothing else changes |
| CookieConsent.ApplyIdempotent | assets/js/cookie-consent.js:104-118 | applying twice has the effect of applying once |
| CookieConsent.Save | assets/js/cookie-consent.js:99-102 | after saving, the cookie yields exactly the stored text of the whole record. Nothing else changes |
| CookieConsent.Init | assets/js/cookie-consent.js:19-32 | with no non-empty saved value, the record is untouched and the banner is shown. With one, loading succeeds iff it parses, the record becomes the saved one, it is applied, the banner is not shown, and the cookie is left as it was. Nothing else changes: the settings dialog and toggles stay, and the `ga-disable` flag is only ever set |
| CookieConsent.New | assets/js/cookie-consent.js:7-17 | a fresh controller with nothing saved holds `{true,false,false}` and shows the banner. With a saved value, construction succeeds iff the value parses. The loaded record is exactly the one saved in the page's cookie, and the cookie is left as it was. The controller is then in step with the cookie, applied, and shows no banner. Every new controller has the settings dialog closed and the toggles as the page set them. With nothing saved, the switches are untouched. With a record loaded, the `ga-disable` flag is set iff the record has analytics off |
| CookieConsent.OptOutSticks | assets/js/cookie-consent.js:120-136 | after "reject all", whatever button or toggle comes next, the `ga-disable` flag stays set, since enabling analytics never clears it |
| CookieConsent.HideSettings | assets/js/cookie-consent.js:58-63 | closing the settings dialog changes nothing else |
| CookieConsent.ShowSettings | assets/js/cookie-consent.js:48-56 | the toggles are pre-filled from the current record, and the record, cookie and banner are untouched |
| CookieConsent.AcceptAll | assets/js/cookie-consent.js:65-74 | all three flags on, saved, applied, banner hidden; the settings dialog and the toggles are left alone, and the `ga-disable` flag keeps its earlier value |
| CookieConsent.RejectAll | assets/js/cookie-consent.js:76-85 | `{true,false,false}`, saved, applied with analytics opted out, banner hidden; the settings dialog and the toggles are left alone |
| CookieConsent.SaveCustom | assets/js/cookie-consent.js:87-97 | `necessary` forced on and the other two copied from the toggles; saved, applied, settings and banner hidden; the toggles keep what the visitor set; the `ga-disable` flag ends set iff it was set before or the analytics toggle is off |
| CookieConsent.SaveUntouchedSettings | assets/js/cookie-consent.js:48-97 | opening the settings and saving without touching them keeps analytics and marketing |
| CookieConsent.ChoiceEstablishes | assets/js/cookie-consent.js:65-97 | each of the three choices leaves the record saved, applied, with `necessary` on and no banner |
| CookieConsent.StepKeepsChosen | assets/js/cookie-consent.js:167-206 | no button or toggle undoes a made choice |
| CookieConsent.ChosenIsKept | assets/js/cookie-consent.js:65-118 | for any sequence of actions after a choice, `necessary` stays on, the cookie holds the record, and the switches follow it |
| CookieConsent.ReloadRestores | assets/js/cookie-consent.js:19-29 | a later page load restores a saved record exactly, applied, without the banner |
| CookieConsent.AcceptRejectSurviveReload | assets/js/cookie-consent.js:65-85 | after accept-all or reject-all, the next load finds that very record |
| CookieConsent.LoadKeepsNecessaryOff | assets/js/cookie-consent.js:23-25 | loading does not force `necessary` on: a saved record with it off loads with it off |
| CookieConsent.SaveWritesExpiry | assets/js/cookie-consent.js:148-153 | every save writes the record with an expiry 365 days after the clock reading, under `path=/` and `SameSite=Lax` |
| VueApp.ValidEmail | assets/js/app.js:45-49 | the check holds exactly when the address matches the regular expression. The empty address is rejected |
| VueApp.Begin | assets/js/app.js:50-66 | `formTouched` is set. A request is made iff the fields are valid and the honeypot is empty. Invalid fields give the danger alert; a filled honeypot on valid fields gives the success alert. A request carries only name, e-mail and message |
| VueApp.Settle | assets/js/app.js:67-100 | `submitting` ends false and an alert is shown. The alert is success iff the response is OK and either not JSON or JSON with `success`; success clears the form and `formTouched`. The success text is the JSON `message` when given, otherwise the default sent text. Otherwise the state is untouched apart from the danger alert, whose text is `data.error`, the network text or the fallback |
| VueApp.SubmitSettles | assets/js/app.js:50-101 | after any submission an alert is shown and nothing is submitting. The form is either kept or cleared. The alert is success iff the fields were valid and either the honeypot was filled or the send went through |
| VueApp.ValidationBeforeHoneypot | assets/js/app.js:54-64 | a filled honeypot with invalid fields gets the validation error, not the fake success |
| VueApp.NoDoubleSend | assets/js/app.js:80-91 | after a successful send the cleared form fails validation, so submitting again sends nothing |
| VueApp.RetrySendsSameBody | assets/js/app.js:92-97 | after a failed send the form is kept, so the next submission sends the same body |
| VueApp.Mounted | assets/js/app.js:27-43 | `sent=1` gives the success alert. `sent=0` gives a danger alert with the decoded `error` or the default text, or nothing when decoding throws. Any other value gives no alert. The URL is cleaned whenever `sent` is present and nothing threw |
| VueApp.MountedAlertCleans | assets/js/app.js:31-41 | a redirect alert always comes with cleaning the URL, and it is a success alert exactly for `sent=1` |
| VueApp.Load | assets/js/app.js:5-43 | the component starts with an empty form, untouched, not submitting, showing the redirect alert |
| ContactForm.ValidEmail | assets/js/contact-form.js:15-18 | the check holds exactly when the address matches the regular expression |
| ContactForm.OrElse | assets/js/contact-form.js:61-63 | a non-empty input value is kept; a missing or empty one becomes the fallback |
| ContactForm.NormalizeMeaning | assets/js/contact-form.js:56-64 | name, e-mail, phone, company and message are the inputs with white space cut from both ends, or empty when missing. The subject is the input when that is non-empty and `general` otherwise. The honeypot is taken untrimmed, and a missing one reads as empty |
| ContactForm.TrimmedMeaning | assets/js/contact-form.js:57 | a trimmed field meets the reference meaning of `trim`, and a missing input reads as empty |
| ContactForm.NormalizeIdempotent | assets/js/contact-form.js:56-64 | reading back values already read gives the same values |
| ContactForm.Begin | assets/js/contact-form.js:66-84 | the checks run in order: honeypot, then required fields, then e-mail shape, and only the first failing check's message shows. A request is made iff all pass, with the button loading and the normalised data. On a failed check the button is untouched |
| ContactForm.Settle | assets/js/contact-form.js:86-107 | the button is released and an alert shown. Success holds iff the response is OK and its body parses; success resets the inputs to their markup values. A network or parse error, or a `null` error body, gives the contact-directly text. Any other failure shows `result.message` or the fallback, and keeps the inputs |
| ContactForm.HoneypotWins | assets/js/contact-form.js:66-70 | a filled honeypot wins over every other check: no request, the spam message, nothing else changed |
| ContactForm.SubmitReleasesButton | assets/js/contact-form.js:51-108 | an alert always shows. The button is released after any request and untouched when none is made. The alert is success iff the checks pass and the response was delivered |
| ContactForm.RequestIsClean | assets/js/contact-form.js:56-93 | a request carries a non-empty trimmed name and message, a trimmed address that matches the regular expression, an empty honeypot and a non-empty subject |
| EndToEnd.ValidatorsAgree | assets/js/contact-form.js:15-18 | the two pages' e-mail checks agree on every string, the empty one included |
| EndToEnd.Request | assets/js/contact-form.js:92 | the handler reads the form's request as the same seven fields |
| EndToEnd.Answer | assets/js/contact-form.js:95-97 | the form sees `ok` exactly for a 2xx status, and a JSON answer's `message` as `result.message` |
| EndToEnd.FormRequestIsAccepted | amplify/backend/function/contactFormHandler/src/index.js:26-57 | every request the form lets through is accepted by the handler: exactly one send, reply-to `name <email>`, and a subject built from the form's subject, never the fallback |
| EndToEnd.FormShowsHandlerVerdict | amplify/backend/function/contactFormHandler/src/index.js:148-169 | the form shows success exactly when the handler's send succeeded. Otherwise it shows the handler's failure text and keeps the inputs |
| EndToEnd.HoneypotOnBothSides | amplify/backend/function/contactFormHandler/src/index.js:37-47 | a filled honeypot stops the form before any request, and a direct post to the handler gets 200 with nothing sent |

## Left out

- The SES client and `sesClient.send` are foreign calls. They are the parameter `sendSucceeds`, and the e-mail that would be sent is recorded in `Outcome.sent`.
- `event.requestContext.http.method` (index.js line 13) is read outside the `try`. The event is taken as well-formed, with its method as `Event.verb`.
- Body fields that are not strings are left out: each field is a string, and a missing or `null` field is `""`. A JSON number or other primitive body is left out too. Such values would change which branch `!body.name` or `body.message.replace` takes.
- The HTML template's markup and styles are left out. The HTML body is modelled as its ordered list of labelled fields, and the `'='.repeat(50)` rule as a literal.
- `new Date().toLocaleString(...)` is the parameter `received`. The two calls are taken to produce the same text.
- `console.log` and `console.error` are left out.
- Handler.HtmlLineBreaksRoundTrip: requires a message without `<`. A message that already contains `<br>` cannot be told apart from a converted line feed.
- Cookies.GetSetRoundTrip: requires a value with no trailing white space as well as no `;`. `getCookie` trims each entry, so trailing white space is lost.
- The browser's cookie jar is left out. `document.cookie` is the string last written: attribute stripping, several cookies and expiry enforcement are not modelled.
- `JSON.parse` of the saved record accepts only the text `JSON.stringify` writes for a three-flag record. Any other text counts as rejected, so the constructor fails (`New` gives `None`). Valid JSON of another shape, which `applyPreferences` would read as falsy flags, is left out.
- `enableAnalytics`, `enableMarketing` and `disableMarketing` only log. They are the `Tracking` flags; `disableAnalytics` is the sticky `gaOptOut` flag.
- The DOM and Vue are reduced to the values the code reads and writes:
  - the banner and modal visibility, the two toggles, the inputs and their markup defaults;
  - the alert and the loading or submitting flags.
- Not modelled: `setTimeout`, `scrollIntoView`, `innerHTML`, `history.replaceState` (only whether it is called) and event-listener wiring (the `Action` steps stand for it).
- Not modelled: the footer year and the static `hero`/`services` data in `app.js`.
- `fetch`, `response.json()` and `resp.headers.get` are the `Outcome` values. Only the reply fields the code reads are kept: `success`, `message` and `error`.
- `app.js` posts to `contact.php`, which is not part of this model. So `VueApp` is not connected to `Handler`.
- The `submitting` flag does not guard a second click in `app.js`, and two overlapping submissions are concurrency. They are not modelled: `Submit` runs one submission to completion.
- The request from `contact-form.js` to the handler is taken to pass through `JSON.stringify` and `JSON.parse` unchanged: the handler reads the same seven string fields (`EndToEnd.Request`).
- API Gateway is taken to pass the handler's status and body to the browser unchanged (`EndToEnd.Answer`).
- URL parsing in `mounted` is left out. The `sent` and `error` query parameters are inputs, already decoded once by `searchParams.get`, and `decodeURIComponent` is the parameter `decode`.

=== FILE: consent.dfy ===
/**
  The cookie-consent controller: a three-flag preference record loaded from a
  cookie at page load, changed only by "accept all", "reject all" and "save
  custom preferences", written back whole to the cookie after every change,
  and applied to the page's analytics and marketing switches. The DOM is
  reduced to the banner and settings visibility and the two settings
  toggles; the clock to a reading in milliseconds and a `toUTCString`
  stand-in.
*/
module CookieConsent {
  import opened Js
  import Cookies

  datatype Prefs = Prefs(necessary: bool, analytics: bool, marketing: bool)

  /** The record a new controller starts from. */
  const Defaults := Prefs(true, false, false)
  const AllAccepted := Prefs(true, true, true)

  const CookieName := "ShailajaPrinters_cookie_consent"
  const CookieDays := 365

  /** What `applyPreferences` did to the page: whether analytics and marketing
      are enabled, and the `ga-disable-…` window flag, which disabling sets and
      enabling never clears. */
  datatype Tracking = Tracking(analytics: bool, marketing: bool, gaOptOut: bool)

  /** A clock reading and the `toUTCString` rendering of a time. */
  datatype Clock = Clock(nowMs: int, utc: int -> string)

  /** The controller and the part of the page it drives. `store` is the
      cookie string. */
  datatype Controller = Controller(
    prefs: Prefs, store: string, banner: bool, settings: bool,
    analyticsToggle: bool, marketingToggle: bool, tracking: Tracking)

  /** The page a controller is constructed on: its cookie string and the
      settings toggles as the markup sets them. */
  datatype Page = Page(cookies: string, analyticsToggle: bool, marketingToggle: bool)

  /** A flag as JSON writes it. */
  function BoolText(b: bool): (t: string)
    ensures ';' !in t
  {
    if b then "true" else "false"
  }

  /** The fixed text around the three flags of a saved record. */
  const OpenKey := "{\"necessary\":"
  const AnalyticsKey := ",\"analytics\":"
  const MarketingKey := ",\"marketing\":"
  const Close := "}"

  /** `JSON.stringify(preferences)`: keys in the order they were written.
      The text is built from the back, in the order `DecodePrefs` reads it. */
  function EncodePrefs(p: Prefs): (s: string)
    ensures Cookies.ReadableValue(s) && s != [] && s[0] == '{' && s[|s| - 1] == '}'
  {
    RecordShape(BoolText(p.necessary), BoolText(p.analytics), BoolText(p.marketing));
    OpenKey + (BoolText(p.necessary) + (AnalyticsKey + (BoolText(p.analytics)
      + (MarketingKey + (BoolText(p.marketing) + Close)))))
  }

  /** The fixed text keeps a record free of ';' and wraps it in braces,
      whatever the flag texts (free of ';' themselves) are. */
  lemma RecordShape(n: string, a: string, m: string)
    requires ';' !in n && ';' !in a && ';' !in m
    ensures var s := OpenKey + (n + (AnalyticsKey + (a + (MarketingKey + (m + Close)))));
      ';' !in s && s != [] && s[0] == '{' && s[|s| - 1] == '}' && !IsSpace(s[|s| - 1])
  {
    assert ';' !in OpenKey && ';' !in AnalyticsKey && ';' !in MarketingKey && ';' !in Close;
    var t3 := m + Close;
    var t2 := MarketingKey + t3;
    var t1 := a + t2;
    var t0 := AnalyticsKey + t1;
    var body := n + t0;
    var s := OpenKey + body;
    assert ';' !in t3 && ';' !in t2 && ';' !in t1 && ';' !in t0 && ';' !in body && ';' !in s;
    assert t3[|t3| - 1] == '}' && s[|s| - 1] == t3[|t3| - 1];
    assert s[0] == OpenKey[0];
  }

  /** A literal boolean at the front of `s`, and the text after it. */
  datatype Token = Token(b: bool, rest: string)

  function ReadBool(s: string): (r: Option<Token>)
    ensures r.Some? ==> s == BoolText(r.value.b) + r.value.rest
  {
    if StartsWith(s, "true") then
      assert s == s[..4] + s[4..];
      Some(Token(true, s[4..]))
    else if StartsWith(s, "false") then
      assert s == s[..5] + s[5..];
      Some(Token(false, s[5..]))
    else None
  }

  /** The text after `key` at the front of `s`. */
  function Expect(s: string, key: string): (r: Option<string>)
    ensures r.Some? ==> s == key + r.value
  {
    if StartsWith(s, key) then
      assert s == s[..|key|] + s[|key|..];
      Some(s[|key|..])
    else None
  }

  /** `JSON.parse` of a saved record, for the texts `EncodePrefs` writes;
      any other text counts as one `JSON.parse` rejects. */
  function DecodePrefs(s: string): (r: Option<Prefs>)
    ensures r.Some? ==> s == EncodePrefs(r.value)
  {
    match Expect(s, OpenKey)
    case None => None
    case Some(s1) =>
      match ReadBool(s1)
      case None => None
      case Some(Token(n, s2)) =>
        match Expect(s2, AnalyticsKey)
        case None => None
        case Some(s3) =>
          match ReadBool(s3)
          case None => None
          case Some(Token(a, s4)) =>
            match Expect(s4, MarketingKey)
            case None => None
            case Some(s5) =>
              match ReadBool(s5)
              case None => None
              case Some(Token(m, s6)) =>
                if s6 == Close then Some(Prefs(n, a, m)) else None
  }

  /** Reading back what was saved gives the record saved. */
  lemma DecodeEncode(p: Prefs)
    ensures DecodePrefs(EncodePrefs(p)) == Some(p)
  {
    var b1, b2, b3 := BoolText(p.necessary), BoolText(p.analytics), BoolText(p.marketing);
    var s5 := b3 + Close;
    var s4 := MarketingKey + s5;
    var s3 := b2 + s4;
    var s2 := AnalyticsKey + s3;
    var s1 := b1 + s2;
    var e := EncodePrefs(p);
    assert e == OpenKey + s1;
    ExpectPrefix(OpenKey, s1);
    ReadBoolPrefix(p.necessary, s2);
    ExpectPrefix(AnalyticsKey, s3);
    ReadBoolPrefix(p.analytics, s4);
    ExpectPrefix(MarketingKey, s5);
    ReadBoolPrefix(p.marketing, Close);
    DecodeSteps(e, s1, s2, s3, s4, s5, p);
  }

  /** `DecodePrefs` accepts a text whose pieces read in turn as the keys and
      the flags of `p`. */
  lemma DecodeSteps(e: string, s1: string, s2: string, s3: string, s4: string, s5: string, p: Prefs)
    requires Expect(e, OpenKey) == Some(s1) && ReadBool(s1) == Some(Token(p.necessary, s2))
    requires Expect(s2, AnalyticsKey) == Some(s3) && ReadBool(s3) == Some(Token(p.analytics, s4))
    requires Expect(s4, MarketingKey) == Some(s5) && ReadBool(s5) == Some(Token(p.marketing, Close))
    ensures DecodePrefs(e) == Some(p)
  {
  }

  lemma ExpectPrefix(key: string, rest: string)
    ensures Expect(key + rest, key) == Some(rest)
  {
    assert (key + rest)[..|key|] == key;
    assert (key + rest)[|key|..] == rest;
  }

  lemma ReadBoolPrefix(b: bool, rest: string)
    requires rest != [] && rest[0] != 'e'
    ensures ReadBool(BoolText(b) + rest) == Some(Token(b, rest))
  {
    var s := BoolText(b) + rest;
    if b {
      assert s[..4] == "true" && s[4..] == rest;
    } else {
      assert s[..4] != "true" by { assert s[0] == 'f'; }
      assert s[..5] == "false" && s[5..] == rest;
    }
  }

  /** The saved record, as `getCookie` finds it, or `None` when no non-empty
      value is saved. */
  function Saved(store: string): Option<string> {
    var v := Cookies.GetCookie(store, CookieName);
    if v.Some? && v.value != "" then v else None
  }

  /** `applyPreferences` */
  function Apply(c: Controller): (d: Controller)
    ensures d.tracking.analytics == c.prefs.analytics && d.tracking.marketing == c.prefs.marketing
    ensures d.tracking.gaOptOut <==> c.tracking.gaOptOut || !c.prefs.analytics
    ensures d.(tracking := c.tracking) == c
  {
    c.(tracking := Tracking(c.prefs.analytics, c.prefs.marketing, c.tracking.gaOptOut || !c.prefs.analytics))
  }

  /** Applying twice has the effect of applying once. */
  lemma ApplyIdempotent(c: Controller)
    ensures Apply(Apply(c)) == Apply(c)
  {
  }

  /** `savePreferences`: the whole record overwrites the cookie. */
  function Save(c: Controller, clock: Clock): (d: Controller)
    ensures Saved(d.store) == Some(EncodePrefs(c.prefs))
    ensures d.(store := c.store) == c
  {
    var d := c.(store := Cookies.SetCookie(CookieName, EncodePrefs(c.prefs), CookieDays, clock.nowMs, clock.utc));
    Cookies.GetSetRoundTrip(CookieName, EncodePrefs(c.prefs), CookieDays, clock.nowMs, clock.utc);
    d
  }

  /** The cookie holds exactly the current record. */
  predicate Synced(c: Controller) {
    Saved(c.store) == Some(EncodePrefs(c.prefs))
  }

  /** The page's switches follow the record. */
  predicate Applied(c: Controller) {
    && c.tracking.analytics == c.prefs.analytics
    && c.tracking.marketing == c.prefs.marketing
    && (!c.prefs.analytics ==> c.tracking.gaOptOut)
  }

  /** The state after a visitor's choice: saved, applied, `necessary` on, the
      banner gone. */
  predicate Chosen(c: Controller) {
    Synced(c) && Applied(c) && c.prefs.necessary && !c.banner
  }

  /** `init`: a saved record is loaded and applied without showing the
      banner; with none, the defaults stay and the banner is shown. `None`
      when the saved text cannot be parsed, so that `JSON.parse` throws out of
      the constructor. */
  function Init(c: Controller): (r: Option<Controller>)
    ensures Saved(c.store).None? ==> r == Some(c.(banner := true))
    ensures Saved(c.store).Some? ==> (r.Some? <==> DecodePrefs(Saved(c.store).value).Some?)
    ensures Saved(c.store).Some? && r.Some? ==>
      && EncodePrefs(r.value.prefs) == Saved(c.store).value
      && r.value.banner == c.banner
      && r.value.store == c.store
      && Applied(r.value)
      && r.value.(prefs := c.prefs, tracking := c.tracking) == c
      && r.value.tracking.gaOptOut == (c.tracking.gaOptOut || !r.value.prefs.analytics)
  {
    match Saved(c.store)
    case None => Some(c.(banner := true))
    case Some(v) =>
      match DecodePrefs(v)
      case None => None
      case Some(p) => Some(Apply(c.(prefs := p)))
  }

  /** `new CookieConsent()`: the defaults, then `init`. */
  function New(page: Page): (r: Option<Controller>)
    ensures Saved(page.cookies).None? ==> r.Some? && r.value.prefs == Defaults && r.value.banner
    ensures Saved(page.cookies).Some? ==> (r.Some? <==> DecodePrefs(Saved(page.cookies).value).Some?)
    ensures Saved(page.cookies).Some? && r.Some? ==> EncodePrefs(r.value.prefs) == Saved(page.cookies).value
    ensures r.Some? ==> r.value.store == page.cookies
    ensures r.Some? ==>
      && !r.value.settings
      && r.value.analyticsToggle == page.analyticsToggle && r.value.marketingToggle == page.marketingToggle
    ensures Saved(page.cookies).None? ==> r.value.tracking == Tracking(false, false, false)
    ensures Saved(page.cookies).Some? && r.Some? ==> r.value.tracking.gaOptOut == !r.value.prefs.analytics
    ensures Saved(page.cookies).Some? && r.Some? ==> Synced(r.value) && Applied(r.value) && !r.value.banner
  {
    Init(Controller(Defaults, page.cookies, false, false,
                    page.analyticsToggle, page.marketingToggle, Tracking(false, false, false)))
  }

  /** `showSettings`: the toggles are set from the current record. */
  function ShowSettings(c: Controller): (d: Controller)
    ensures d.settings
    ensures d.analyticsToggle == c.prefs.analytics && d.marketingToggle == c.prefs.marketing
    ensures d.prefs == c.prefs && d.store == c.store && d.banner == c.banner && d.tracking == c.tracking
  {
    c.(settings := true, analyticsToggle := c.prefs.analytics, marketingToggle := c.prefs.marketing)
  }

  /** `hideSettings`: only the settings dialog closes. */
  function HideSettings(c: Controller): (d: Controller)
    ensures !d.settings && d.(settings := c.settings) == c
  {
    c.(settings := false)
  }

  /** The visitor ticking the two settings toggles. */
  function SetToggles(c: Controller, analytics: bool, marketing: bool): Controller {
    c.(analyticsToggle := analytics, marketingToggle := marketing)
  }

  /** `acceptAll` */
  function AcceptAll(c: Controller, clock: Clock): (d: Controller)
    ensures d.prefs == AllAccepted && Chosen(d)
    ensures d.tracking.analytics && d.tracking.marketing && d.tracking.gaOptOut == c.tracking.gaOptOut
    ensures d.settings == c.settings && d.analyticsToggle == c.analyticsToggle && d.marketingToggle == c.marketingToggle
  {
    Apply(Save(c.(prefs := AllAccepted), clock)).(banner := false)
  }

  /** `rejectAll` */
  function RejectAll(c: Controller, clock: Clock): (d: Controller)
    ensures d.prefs == Defaults && Chosen(d)
    ensures !d.tracking.analytics && !d.tracking.marketing && d.tracking.gaOptOut
    ensures d.settings == c.settings && d.analyticsToggle == c.analyticsToggle && d.marketingToggle == c.marketingToggle
  {
    Apply(Save(c.(prefs := Defaults), clock)).(banner := false)
  }

  /** `saveCustomPreferences`: `necessary` forced on, the rest from the toggles. */
  function SaveCustom(c: Controller, clock: Clock): (d: Controller)
    ensures d.prefs == Prefs(true, c.analyticsToggle, c.marketingToggle) && Chosen(d)
    ensures !d.settings && d.analyticsToggle == c.analyticsToggle && d.marketingToggle == c.marketingToggle
    ensures d.tracking.gaOptOut == (c.tracking.gaOptOut || !c.analyticsToggle)
  {
    Apply(Save(c.(prefs := Prefs(true, c.analyticsToggle, c.marketingToggle)), clock)).(settings := false, banner := false)
  }

  /** Once analytics has been disabled in a session, no later choice enables
      it again: `enableAnalytics` never clears the `ga-disable` flag. */
  lemma OptOutSticks(c: Controller, clock: Clock, later: Action, laterClock: Clock)
    ensures Step(RejectAll(c, clock), later, laterClock).tracking.gaOptOut
  {
  }

  /** Opening the settings and saving without touching the toggles keeps the
      visitor's analytics and marketing choices. */
  lemma SaveUntouchedSettings(c: Controller, clock: Clock)
    ensures SaveCustom(ShowSettings(c), clock).prefs == c.prefs.(necessary := true)
  {
  }

  /** The buttons and toggles the page wires to the controller. */
  datatype Action =
    | ClickAcceptAll | ClickRejectAll | ClickSettings | CloseSettings
    | Toggle(analytics: bool, marketing: bool) | ClickSave

  function Step(c: Controller, a: Action, clock: Clock): Controller {
    match a
    case ClickAcceptAll => AcceptAll(c, clock)
    case ClickRejectAll => RejectAll(c, clock)
    case ClickSettings => ShowSettings(c)
    case CloseSettings => HideSettings(c)
    case Toggle(an, mk) => SetToggles(c, an, mk)
    case ClickSave => SaveCustom(c, clock)
  }

  /** A session of actions, each at its own clock reading. */
  function Run(c: Controller, actions: seq<Action>, clocks: seq<Clock>): Controller
    requires |clocks| == |actions|
    decreases |actions|
  {
    if actions == [] then c else Run(Step(c, actions[0], clocks[0]), actions[1..], clocks[1..])
  }

  /** The three choices each leave the controller saved, applied, with
      `necessary` on and the banner gone, whatever the state before. */
  lemma ChoiceEstablishes(c: Controller, a: Action, clock: Clock)
    requires a.ClickAcceptAll? || a.ClickRejectAll? || a.ClickSave?
    ensures Chosen(Step(c, a, clock))
  {
  }

  /** Once a choice is made it stays in force for the rest of the session:
      every later action keeps the cookie in step with the record, the
      switches applied, `necessary` on and the banner hidden. */
  lemma {:induction false} ChosenIsKept(c: Controller, actions: seq<Action>, clocks: seq<Clock>)
    requires |clocks| == |actions|
    requires Chosen(c)
    ensures Chosen(Run(c, actions, clocks))
    decreases |actions|
  {
    if actions != [] {
      StepKeepsChosen(c, actions[0], clocks[0]);
      ChosenIsKept(Step(c, actions[0], clocks[0]), actions[1..], clocks[1..]);
    }
  }

  lemma StepKeepsChosen(c: Controller, a: Action, clock: Clock)
    requires Chosen(c)
    ensures Chosen(Step(c, a, clock))
  {
  }

  /** A later page load restores a saved choice: the same record, applied,
      and no banner. */
  lemma ReloadRestores(c: Controller, analyticsToggle: bool, marketingToggle: bool)
    requires Synced(c)
    ensures var r := New(Page(c.store, analyticsToggle, marketingToggle));
      r.Some? && r.value.prefs == c.prefs && !r.value.banner && Applied(r.value)
  {
    DecodeEncode(c.prefs);
  }

  /** After "accept all" or "reject all" the next page load finds exactly
      that record. */
  lemma AcceptRejectSurviveReload(c: Controller, clock: Clock, at: bool, mt: bool)
    ensures var r := New(Page(AcceptAll(c, clock).store, at, mt)); r.Some? && r.value.prefs == AllAccepted
    ensures var r := New(Page(RejectAll(c, clock).store, at, mt)); r.Some? && r.value.prefs == Defaults
  {
    ReloadRestores(AcceptAll(c, clock), at, mt);
    ReloadRestores(RejectAll(c, clock), at, mt);
  }

  /** Loading does not force `necessary` on: a saved record with it off is
      taken as it is. */
  lemma LoadKeepsNecessaryOff(clock: Clock, at: bool, mt: bool)
    ensures var store := Cookies.SetCookie(CookieName, EncodePrefs(Prefs(false, true, false)), CookieDays, clock.nowMs, clock.utc);
      var r := New(Page(store, at, mt));
      r.Some? && !r.value.prefs.necessary
  {
    var p := Prefs(false, true, false);
    Cookies.GetSetRoundTrip(CookieName, EncodePrefs(p), CookieDays, clock.nowMs, clock.utc);
    DecodeEncode(p);
  }

  /** Every save writes the record with an expiry 365 days after the clock
      reading, under path `/` and `SameSite=Lax`. */
  lemma SaveWritesExpiry(c: Controller, clock: Clock)
    requires ';' !in clock.utc(clock.nowMs + 365 * Cookies.MsPerDay)
    ensures Split(Save(c, clock).store, ';') ==
      [CookieName + "=" + EncodePrefs(c.prefs), "expires=" + clock.utc(clock.nowMs + 365 * Cookies.MsPerDay),
       Cookies.PathAttribute, Cookies.SameSiteAttribute]
  {
    var v := EncodePrefs(c.prefs);
    var t := Cookies.ExpiryMs(clock.nowMs, CookieDays);
    assert t == clock.nowMs + 365 * Cookies.MsPerDay;
    var u := clock.utc(t);
    assert ';' !in CookieName;
    assert ';' !in CookieName + v + u;
  }
}

=== FILE: contact_form.dfy ===
/**
  The plain-script contact form: how the submit handler reads the inputs,
  the order of its three checks, and how it maps the response to an alert
  and a form reset. The page is reduced to the seven inputs (with the
  values the markup gives them, which `form.reset()` restores), the alert
  and the button's loading state; `fetch` to what it returned.
*/
module ContactForm {
  import opened Js
  import opened Ui
  import EmailRegex

  /** The values of the seven inputs; `None` when the element is missing. */
  datatype Inputs = Inputs(
    name: Option<string>, email: Option<string>, phone: Option<string>, company: Option<string>,
    subject: Option<string>, message: Option<string>, website: Option<string>)

  /** `formData`, the object the handler checks and sends. */
  datatype FormData = FormData(
    name: string, email: string, phone: string, company: string,
    subject: string, message: string, website: string)

  const DefaultSubject := "general"
  const SpamMessage := "Form submission failed. Please try again."
  const RequiredMessage := "Please fill in all required fields."
  const EmailMessage := "Please enter a valid email address."
  const SentMessage := "Thank you! Your message has been sent successfully. We'll get back to you soon."
  const FailedMessage := "There was an error sending your message. Please try again."
  const ContactDirectlyMessage :=
    "There was an error sending your message. Please try again or contact us directly at shailajaprinters@gmail.com"

  /** `validEmail`: the test `^[^\s@]+@[^\s@]+\.[^\s@]+$`. */
  function ValidEmail(email: string): (ok: bool)
    ensures ok <==> EmailRegex.MatchesPattern(email)
  {
    EmailRegex.TestIsPattern(email);
    EmailRegex.Test(email)
  }

  /** `el?.value?.trim() || ''` */
  function Trimmed(v: Option<string>): string {
    match v
    case None => ""
    case Some(s) => Trim(s)
  }

  /** `el?.value || fallback` */
  function OrElse(v: Option<string>, fallback: string): (r: string)
    ensures v.Some? && v.value != "" ==> r == v.value
    ensures (v.None? || v.value == "") ==> r == fallback
  {
    if v.Some? && v.value != "" then v.value else fallback
  }

  /** How the handler reads the inputs: five are trimmed, the subject and the
      honeypot are taken as they are. */
  function Normalize(i: Inputs): FormData {
    FormData(Trimmed(i.name), Trimmed(i.email), Trimmed(i.phone), Trimmed(i.company),
             OrElse(i.subject, DefaultSubject), Trimmed(i.message), OrElse(i.website, ""))
  }

  /** A trimmed field is the input with the white space at both ends cut off,
      or empty for a missing input. */
  ghost predicate TrimmedFrom(v: Option<string>, r: string) {
    match v
    case None => r == ""
    case Some(s) => IsTrimOf(r, s)
  }

  /** What `Normalize` does to each input. */
  lemma NormalizeMeaning(i: Inputs)
    ensures var d := Normalize(i);
      && TrimmedFrom(i.name, d.name) && TrimmedFrom(i.email, d.email)
      && TrimmedFrom(i.phone, d.phone) && TrimmedFrom(i.company, d.company)
      && TrimmedFrom(i.message, d.message)
      && d.subject != "" && (i.subject.Some? && i.subject.value != "" ==> d.subject == i.subject.value)
      && (i.subject.None? || i.subject.value == "" ==> d.subject == DefaultSubject)
      && (i.website.Some? ==> d.website == i.website.value)
      && (i.website.None? ==> d.website == "")
  {
    TrimmedMeaning(i.name);
    TrimmedMeaning(i.email);
    TrimmedMeaning(i.phone);
    TrimmedMeaning(i.company);
    TrimmedMeaning(i.message);
  }

  lemma TrimmedMeaning(v: Option<string>)
    ensures TrimmedFrom(v, Trimmed(v))
  {
    if v.Some? {
      TrimMeaning(v.value);
    }
  }

  /** Feeding the read values back into the inputs reads the same values. */
  function Refill(d: FormData): Inputs {
    Inputs(Some(d.name), Some(d.email), Some(d.phone), Some(d.company), Some(d.subject), Some(d.message), Some(d.website))
  }

  lemma NormalizeIdempotent(i: Inputs)
    ensures Normalize(Refill(Normalize(i))) == Normalize(i)
  {
    var d := Normalize(i);
    TrimmedTwice(i.name);
    TrimmedTwice(i.email);
    TrimmedTwice(i.phone);
    TrimmedTwice(i.company);
    TrimmedTwice(i.message);
  }

  lemma TrimmedTwice(v: Option<string>)
    ensures Trim(Trimmed(v)) == Trimmed(v)
  {
    if v.Some? {
      TrimIdempotent(v.value);
    }
  }

  /** The data passes all three checks. */
  predicate Passes(d: FormData) {
    d.website == "" && d.name != "" && d.email != "" && d.message != "" && ValidEmail(d.email)
  }

  /** The part of the page the handler drives: the inputs, the values the
      markup gives them, the alert, and whether the button is loading. */
  datatype Page = Page(inputs: Inputs, defaults: Inputs, alert: Option<Alert>, loading: bool)

  /** The submit handler up to the `await`: settled with an alert, or waiting
      for the answer to a request carrying `data`. */
  datatype Begun = Settled(page: Page) | Pending(page: Page, data: FormData)

  function Begin(p: Page): (b: Begun)
    ensures b.page.inputs == p.inputs && b.page.defaults == p.defaults
    ensures b.Pending? <==> Passes(Normalize(p.inputs))
    ensures b.Settled? ==> b.page.loading == p.loading && b.page.alert.Some? && b.page.alert.value.kind == Danger
    ensures var d := Normalize(p.inputs);
      && (d.website != "" ==> b.page.alert == Some(Alert(Danger, SpamMessage)))
      && (d.website == "" && (d.name == "" || d.email == "" || d.message == "") ==>
            b.page.alert == Some(Alert(Danger, RequiredMessage)))
      && (d.website == "" && d.name != "" && d.email != "" && d.message != "" && !ValidEmail(d.email) ==>
            b.page.alert == Some(Alert(Danger, EmailMessage)))
    ensures b.Pending? ==> b.page.loading && b.page.alert.None? && b.data == Normalize(p.inputs)
  {
    var p := p.(alert := None);
    var d := Normalize(p.inputs);
    if d.website != "" then Settled(p.(alert := Some(Alert(Danger, SpamMessage))))
    else if d.name == "" || d.email == "" || d.message == "" then Settled(p.(alert := Some(Alert(Danger, RequiredMessage))))
    else if !ValidEmail(d.email) then Settled(p.(alert := Some(Alert(Danger, EmailMessage))))
    else Pending(p.(loading := true), d)
  }

  /** The field of the reply the handler reads. */
  datatype ReplyBody = ReplyBody(message: string)

  /** What the request came to: `fetch` threw, or a response arrived with its
      `ok` flag and the outcome of `response.json()`. */
  datatype Outcome = NetworkFailure | Responded(ok: bool, body: Parsed<ReplyBody>)

  /** The handler reports success: an OK response whose body parses (a
      `null` body included, since the OK branch never reads it). */
  predicate Delivered(o: Outcome) {
    o.Responded? && o.ok && !o.body.Unparsable?
  }

  /** An exception reached the `catch`: `fetch` threw, the body did not parse,
      or a `null` body was read for its `message`. */
  predicate Threw(o: Outcome) {
    o.NetworkFailure? || o.body.Unparsable? || (!o.ok && o.body.ParsedNull?)
  }

  /** The submit handler after the `await`. */
  function Settle(p: Page, o: Outcome): (r: Page)
    ensures !r.loading && r.alert.Some? && r.defaults == p.defaults
    ensures r.alert.value.kind == Success <==> Delivered(o)
    ensures Delivered(o) ==> r.inputs == p.defaults && r.alert.value.message == SentMessage
    ensures !Delivered(o) ==> r.inputs == p.inputs
    ensures Threw(o) ==> r.alert == Some(Alert(Danger, ContactDirectlyMessage))
    ensures !Delivered(o) && !Threw(o) ==>
      r.alert.value.message == if o.body.value.message != "" then o.body.value.message else FailedMessage
  {
    match o
    case NetworkFailure => p.(alert := Some(Alert(Danger, ContactDirectlyMessage)), loading := false)
    case Responded(ok, body) =>
      match body
      case Unparsable => p.(alert := Some(Alert(Danger, ContactDirectlyMessage)), loading := false)
      case ParsedNull =>
        if ok then p.(alert := Some(Alert(Success, SentMessage)), inputs := p.defaults, loading := false)
        else p.(alert := Some(Alert(Danger, ContactDirectlyMessage)), loading := false)
      case Parsed(result) =>
        if ok then p.(alert := Some(Alert(Success, SentMessage)), inputs := p.defaults, loading := false)
        else
          var text := if result.message != "" then result.message else FailedMessage;
          p.(alert := Some(Alert(Danger, text)), loading := false)
  }

  /** A whole submission, given what the request would come to. */
  function Submit(p: Page, o: Outcome): Page {
    match Begin(p)
    case Settled(q) => q
    case Pending(q, _) => Settle(q, o)
  }

  /** A filled honeypot wins over every other check: no request, the spam
      message, the button untouched. */
  lemma HoneypotWins(p: Page, o: Outcome)
    requires Normalize(p.inputs).website != ""
    ensures Begin(p).Settled?
    ensures Submit(p, o) == p.(alert := Some(Alert(Danger, SpamMessage)))
  {
  }

  /** A submission ends with an alert shown; the button is released after
      every request outcome and untouched when no request is made. */
  lemma SubmitReleasesButton(p: Page, o: Outcome)
    ensures var r := Submit(p, o);
      && r.alert.Some?
      && (Passes(Normalize(p.inputs)) ==> !r.loading)
      && (!Passes(Normalize(p.inputs)) ==> r.loading == p.loading && r.inputs == p.inputs)
      && (r.alert.value.kind == Success <==> Passes(Normalize(p.inputs)) && Delivered(o))
  {
  }

  /** A request only leaves with a non-empty trimmed name, email and message,
      an address of the right shape and no honeypot text. */
  lemma RequestIsClean(p: Page)
    requires Begin(p).Pending?
    ensures var d := Begin(p).data;
      && d.name != "" && d.message != "" && IsTrimmed(d.name) && IsTrimmed(d.email) && IsTrimmed(d.message)
      && EmailRegex.MatchesPattern(d.email) && d.website == "" && d.subject != ""
  {
    NormalizeMeaning(p.inputs);
  }
}

=== FILE: cookies.dfy ===
/**
  The consent controller's two cookie helpers, over the raw cookie string:
  `setCookie` builds the text assigned to `document.cookie`, and `getCookie`
  finds a value in a cookie string. The browser's own cookie store is not
  modelled: the string written is the string later read.
*/
module Cookies {
  import opened Js

  /** `24 * 60 * 60 * 1000` */
  const MsPerDay := 86400000

  /** The cookie attributes after the expiry. */
  const PathAttribute := "path=/"
  const SameSiteAttribute := "SameSite=Lax"

  /** When a cookie written at `nowMs` for `days` days runs out. */
  function ExpiryMs(nowMs: int, days: int): (t: int)
    ensures t - nowMs == days * MsPerDay
  {
    nowMs + days * 24 * 60 * 60 * 1000
  }

  /** `setCookie(name, value, days)`: the text assigned to `document.cookie`.
      `nowMs` is the clock reading and `utc` stands for `toUTCString`. When no
      part holds a ';', the text splits back into exactly its four entries. */
  function SetCookie(name: string, value: string, days: int, nowMs: int, utc: int -> string): (c: string)
    ensures ';' !in name + value + utc(ExpiryMs(nowMs, days)) ==>
      Split(c, ';') == [name + "=" + value, "expires=" + utc(ExpiryMs(nowMs, days)), PathAttribute, SameSiteAttribute]
  {
    var expires := "expires=" + utc(ExpiryMs(nowMs, days));
    var c := name + "=" + value + ";" + expires + ";" + PathAttribute + ";" + SameSiteAttribute;
    if ';' !in name + value + utc(ExpiryMs(nowMs, days)) then
      var parts := [name + "=" + value, expires, PathAttribute, SameSiteAttribute];
      JoinFour(parts[0], parts[1], parts[2], parts[3]);
      NoSeparatorEntry(name, value);
      NoSeparatorPrefixed("expires=", name + value, utc(ExpiryMs(nowMs, days)));
      SplitJoin(parts, ';');
      c
    else
      c
  }

  lemma JoinFour(a: string, b: string, c: string, d: string)
    ensures Join([a, b, c, d], ';') == a + ";" + b + ";" + c + ";" + d
  {
    var parts := [a, b, c, d];
    assert parts[1..] == [b, c, d] && parts[1..][1..] == [c, d] && parts[1..][1..][1..] == [d];
    assert Join([c, d], ';') == c + ";" + d;
    assert Join([b, c, d], ';') == b + ";" + (c + ";" + d);
  }

  lemma NoSeparatorEntry(name: string, value: string)
    requires ';' !in name + value
    ensures ';' !in name + "=" + value
  {
    var entry := name + "=" + value;
    forall k | 0 <= k < |entry| ensures entry[k] != ';' {
      if k < |name| {
        assert entry[k] == (name + value)[k];
      } else if k > |name| {
        assert entry[k] == (name + value)[k - 1];
      }
    }
  }

  lemma NoSeparatorPrefixed(prefix: string, other: string, u: string)
    requires ';' !in prefix && ';' !in other + u
    ensures ';' !in prefix + u
  {
    forall k | 0 <= k < |prefix + u| ensures (prefix + u)[k] != ';' {
      if k >= |prefix| {
        assert (prefix + u)[k] == (other + u)[|other| + k - |prefix|];
      }
    }
  }

  /** The trimmed entry starts with `nameEq`: the test `indexOf(nameEQ) === 0`. */
  predicate EntryMatches(entry: string, nameEq: string) {
    StartsWith(Trim(entry), nameEq)
  }

  /** The entry at `i` is the first one that matches. */
  predicate FirstMatchAt(entries: seq<string>, nameEq: string, i: int) {
    && 0 <= i < |entries|
    && EntryMatches(entries[i], nameEq)
    && forall j :: 0 <= j < i ==> !EntryMatches(entries[j], nameEq)
  }

  /** The loop of `getCookie`: the rest of the first matching entry, or `None`
      when no entry matches. */
  function Lookup(entries: seq<string>, nameEq: string): (r: Option<string>)
    ensures r.None? <==> forall i :: 0 <= i < |entries| ==> !EntryMatches(entries[i], nameEq)
    ensures r.Some? ==> exists i :: FirstMatchAt(entries, nameEq, i) && r.value == Trim(entries[i])[|nameEq|..]
  {
    if entries == [] then None
    else if EntryMatches(entries[0], nameEq) then
      assert FirstMatchAt(entries, nameEq, 0);
      Some(Trim(entries[0])[|nameEq|..])
    else
      var r := Lookup(entries[1..], nameEq);
      LookupSkip(entries, nameEq, r);
      r
  }

  lemma LookupSkip(entries: seq<string>, nameEq: string, r: Option<string>)
    requires entries != [] && !EntryMatches(entries[0], nameEq)
    requires r.None? <==> forall i :: 0 <= i < |entries| - 1 ==> !EntryMatches(entries[1..][i], nameEq)
    requires r.Some? ==> exists i :: FirstMatchAt(entries[1..], nameEq, i) && r.value == Trim(entries[1..][i])[|nameEq|..]
    ensures r.None? <==> forall i :: 0 <= i < |entries| ==> !EntryMatches(entries[i], nameEq)
    ensures r.Some? ==> exists i :: FirstMatchAt(entries, nameEq, i) && r.value == Trim(entries[i])[|nameEq|..]
  {
    if r.Some? {
      var i :| FirstMatchAt(entries[1..], nameEq, i) && r.value == Trim(entries[1..][i])[|nameEq|..];
      assert entries[1..][i] == entries[i + 1];
      forall j | 0 <= j < i + 1 ensures !EntryMatches(entries[j], nameEq) {
        if j > 0 { assert entries[j] == entries[1..][j - 1]; }
      }
      assert FirstMatchAt(entries, nameEq, i + 1);
      assert EntryMatches(entries[i + 1], nameEq);
    } else {
      forall i | 0 < i < |entries| ensures !EntryMatches(entries[i], nameEq) {
        assert entries[i] == entries[1..][i - 1];
      }
    }
  }

  /** `getCookie(name)` on the cookie string `store`. */
  function GetCookie(store: string, name: string): Option<string> {
    Lookup(Split(store, ';'), name + "=")
  }

  /** `getCookie` finds the remainder of the first entry of the cookie string
      that, trimmed, starts with `name=`, and nothing when there is none. */
  lemma GetCookieMeaning(store: string, name: string)
    ensures GetCookie(store, name).None? <==>
      forall i :: 0 <= i < |Split(store, ';')| ==> !EntryMatches(Split(store, ';')[i], name + "=")
    ensures GetCookie(store, name).Some? ==>
      exists i :: FirstMatchAt(Split(store, ';'), name + "=", i)
        && GetCookie(store, name).value == Trim(Split(store, ';')[i])[|name + "="|..]
  {
    var entries, nameEq := Split(store, ';'), name + "=";
    var r := Lookup(entries, nameEq);
    assert GetCookie(store, name) == r;
    if r.Some? {
      var i :| FirstMatchAt(entries, nameEq, i) && r.value == Trim(entries[i])[|nameEq|..];
      assert 0 <= i < |Split(store, ';')| && EntryMatches(Split(store, ';')[i], name + "=");
    } else {
      forall i | 0 <= i < |Split(store, ';')| ensures !EntryMatches(Split(store, ';')[i], name + "=") {
        assert !EntryMatches(entries[i], nameEq);
      }
    }
  }

  /** A name that can be found again: no ';' in it and no leading white space. */
  predicate ReadableName(name: string) {
    ';' !in name && (name == [] || !IsSpace(name[0]))
  }

  /** A value that survives the trip: no ';' and no trailing white space,
      which `trim` would cut off. */
  predicate ReadableValue(value: string) {
    ';' !in value && (value == [] || !IsSpace(value[|value| - 1]))
  }

  /** Reading back a cookie just written yields the value written, whatever the
      clock and the expiry text. */
  lemma GetSetRoundTrip(name: string, value: string, days: int, nowMs: int, utc: int -> string)
    requires ReadableName(name) && ReadableValue(value)
    ensures GetCookie(SetCookie(name, value, days, nowMs, utc), name) == Some(value)
  {
    var entry := name + "=" + value;
    var c := SetCookie(name, value, days, nowMs, utc);
    var tail := "expires=" + utc(ExpiryMs(nowMs, days)) + ";" + PathAttribute + ";" + SameSiteAttribute;
    assert c == entry + [';'] + tail;
    NoSeparatorEntry(name, value);
    FirstPieceOfSplit(entry, tail);
    EntryReadsBack(name, value);
  }

  /** The first piece of a split is the text before the first separator. */
  lemma FirstPieceOfSplit(a: string, b: string)
    requires ';' !in a
    ensures Split(a + [';'] + b, ';')[0] == a
  {
    var c := a + [';'] + b;
    assert c[|a|] == ';' && c[..|a|] == a;
    assert IndexOf(c, ';') == |a|;
  }

  /** A single readable entry is found by its name. */
  lemma EntryReadsBack(name: string, value: string)
    requires ReadableName(name) && ReadableValue(value)
    ensures EntryMatches(name + "=" + value, name + "=")
    ensures Trim(name + "=" + value)[|name + "="|..] == value
  {
    var nameEq, entry := name + "=", name + "=" + value;
    EntryIsTrimmed(name, value);
    TrimOfItself(entry);
    assert Trim(entry) == nameEq + value;
    assert (nameEq + value)[..|nameEq|] == nameEq;
    assert (nameEq + value)[|nameEq|..] == value;
  }

  lemma EntryIsTrimmed(name: string, value: string)
    requires ReadableName(name) && ReadableValue(value)
    ensures IsTrimmed(name + "=" + value)
  {
    var entry := name + "=" + value;
    assert entry[0] == if name == [] then '=' else name[0];
    assert entry[|entry| - 1] == if value == [] then '=' else value[|value| - 1];
  }

  lemma TrimOfItself(s: string)
    requires IsTrimmed(s)
    ensures Trim(s) == s
  {
    assert s == s[0..0 + |s|] && s[..0] == [] && s[0 + |s|..] == [];
    assert IsTrimOf(s, s);
    TrimOfIsUnique(s, s);
  }
}

=== FILE: email_regex.dfy ===
/**
  The e-mail shape check shared by both client controllers: the regular
  expression `/^[^@\s]+@[^@\s]+\.[^@\s]+$/` (written `[^\s@]` in one file; the
  class is the same).
*/
module EmailRegex {
  import opened Js

  /** A character the class `[^@\s]` accepts. */
  predicate Plain(c: char) {
    c != '@' && !IsSpace(c)
  }

  predicate AllPlain(s: string) {
    forall k :: 0 <= k < |s| ==> Plain(s[k])
  }

  /** What a match of the expression means: the whole string is a non-empty
      run of plain characters, an '@', another non-empty run, a literal '.',
      and a last non-empty run (the middle run may itself contain dots). */
  ghost predicate MatchesPattern(s: string) {
    exists i, j :: 0 < i && i + 1 < j && j + 1 < |s| && s[i] == '@' && s[j] == '.'
      && AllPlain(s[..i]) && AllPlain(s[i + 1..j]) && AllPlain(s[j + 1..])
  }

  /** The domain has a '.' that is neither its first nor its last character. */
  predicate HasInnerDot(domain: string) {
    |domain| >= 2 && '.' in domain[1..|domain| - 1]
  }

  /** The expression decided by one scan: exactly one '@', no white space, a
      non-empty part before the '@', and a domain with an inner dot. */
  predicate Test(s: string) {
    && Count(s, '@') == 1
    && NoSpace(s)
    && var k := IndexOf(s, '@');
       k > 0 && HasInnerDot(s[k + 1..])
  }

  /** Every character of `s` other than the one at `i` is plain. */
  predicate PlainExcept(s: string, i: int) {
    forall p :: 0 <= p < |s| && p != i ==> Plain(s[p])
  }

  /** A string whose only '@' sits at `i` has exactly one '@'. */
  lemma CountSingle(s: string, i: nat)
    requires i < |s| && s[i] == '@'
    requires PlainExcept(s, i)
    ensures Count(s, '@') == 1
  {
    var before, after := s[..i], s[i + 1..];
    assert s == before + [s[i]] + after;
    CountAppend(before + [s[i]], after, '@');
    CountAppend(before, [s[i]], '@');
    assert '@' !in before;
    assert '@' !in after by {
      forall p | 0 <= p < |after| ensures after[p] != '@' {
        assert after[p] == s[i + 1 + p];
      }
    }
  }

  lemma PlainSlice(s: string, i: int, a: nat, b: nat)
    requires PlainExcept(s, i) && a <= b <= |s| && !(a <= i < b)
    ensures AllPlain(s[a..b])
  {
    forall p | 0 <= p < b - a ensures Plain(s[a..b][p]) {
      assert s[a..b][p] == s[a + p];
    }
  }

  /** Exactly one '@' and no white space: everything but that '@' is plain. */
  lemma SingleAtPlain(s: string)
    requires Count(s, '@') == 1 && NoSpace(s)
    ensures PlainExcept(s, IndexOf(s, '@'))
  {
    var k := IndexOf(s, '@');
    var d := s[k + 1..];
    assert s == s[..k] + s[k..];
    CountAppend(s[..k], s[k..], '@');
    assert s[k..] == [s[k]] + d;
    CountAppend([s[k]], d, '@');
    forall p | 0 <= p < |s| && p != k ensures Plain(s[p]) {
      if p < k { assert s[..k][p] == s[p]; } else { assert d[p - k - 1] == s[p]; }
    }
  }

  lemma TestImpliesPattern(s: string)
    requires Test(s)
    ensures MatchesPattern(s)
  {
    var k := IndexOf(s, '@');
    SingleAtPlain(s);
    var d := s[k + 1..];
    var inner := d[1..|d| - 1];
    var m' :| 0 <= m' < |inner| && inner[m'] == '.';
    var j := k + 2 + m';
    assert s[j] == inner[m'];
    PlainSlice(s, k, 0, k);
    PlainSlice(s, k, k + 1, j);
    PlainSlice(s, k, j + 1, |s|);
  }

  /** A match's only '@' is the one between the local part and the domain. */
  lemma PatternPlainExcept(s: string, i: nat, j: nat)
    requires 0 < i && i + 1 < j && j + 1 < |s| && s[j] == '.'
    requires AllPlain(s[..i]) && AllPlain(s[i + 1..j]) && AllPlain(s[j + 1..])
    ensures PlainExcept(s, i)
  {
    var local, host, tld := s[..i], s[i + 1..j], s[j + 1..];
    forall p | 0 <= p < |s| && p != i ensures Plain(s[p]) {
      if p < i {
        assert local[p] == s[p];
      } else if p < j {
        assert host[p - i - 1] == s[p];
      } else if p > j {
        assert tld[p - j - 1] == s[p];
      }
    }
  }

  lemma PatternImpliesTest(s: string)
    requires MatchesPattern(s)
    ensures Test(s)
  {
    var i, j :| 0 < i && i + 1 < j && j + 1 < |s| && s[i] == '@' && s[j] == '.'
      && AllPlain(s[..i]) && AllPlain(s[i + 1..j]) && AllPlain(s[j + 1..]);
    PatternPlainExcept(s, i, j);
    CountSingle(s, i);
    PlainExceptAt(s, i);
    var d := s[i + 1..];
    var inner := d[1..|d| - 1];
    assert inner[j - i - 2] == s[j];
    assert HasInnerDot(d);
  }

  /** In a string whose only '@' sits at `i`, that '@' is the first one and
      the string has no white space. */
  lemma PlainExceptAt(s: string, i: nat)
    requires i < |s| && s[i] == '@' && PlainExcept(s, i)
    ensures NoSpace(s) && IndexOf(s, '@') == i
  {
    forall p | 0 <= p < |s| ensures !IsSpace(s[p]) {
      if p != i { assert Plain(s[p]); }
    }
    var k := IndexOf(s, '@');
    assert !Plain(s[k]);
  }

  /** The scan accepts exactly the strings the regular expression matches. */
  lemma TestIsPattern(s: string)
    ensures Test(s) <==> MatchesPattern(s)
  {
    if Test(s) { TestImpliesPattern(s); }
    if MatchesPattern(s) { PatternImpliesTest(s); }
  }
}

=== FILE: end_to_end.dfy ===
/**
  The plain-script contact form talking to the submission handler: the
  request the form sends is read by the handler as the same record, and the
  handler's answer is shown by the form. `JSON.stringify` followed by
  `JSON.parse` is taken to give back the record; API Gateway is taken to
  pass the handler's status and body through unchanged.
*/
module EndToEnd {
  import opened Js
  import opened Ui
  import Handler
  import ContactForm
  import VueApp

  /** The two pages' email checks accept the same addresses, the empty one
      included. */
  lemma ValidatorsAgree(email: string)
    ensures VueApp.ValidEmail(email) == ContactForm.ValidEmail(email)
    ensures !VueApp.ValidEmail("") && !ContactForm.ValidEmail("")
  {
  }

  /** The handler's view of the form's request. */
  function Request(d: ContactForm.FormData): (e: Handler.Event)
    ensures e.verb == "POST"
    ensures Handler.ReadBody(e.body) == Some(Handler.Submission(d.name, d.email, d.message, d.phone, d.company, d.subject, d.website))
  {
    Handler.Event("POST", Handler.Text(Parsed(Handler.Submission(d.name, d.email, d.message, d.phone, d.company, d.subject, d.website))))
  }

  /** The form's view of the handler's answer: `ok` for a 2xx status, and the
      JSON body it parses to. */
  function Answer(r: Handler.Response): (o: ContactForm.Outcome)
    ensures o.Responded? && (o.ok <==> 200 <= r.status < 300)
    ensures r.body.Json? ==> o.body == Parsed(ContactForm.ReplyBody(r.body.message))
  {
    var body := match r.body
      case Empty => Unparsable
      case Json(_, message) => Parsed(ContactForm.ReplyBody(message));
    ContactForm.Responded(200 <= r.status < 300, body)
  }

  /** Every request the form lets through is one the handler accepts, so the
      handler makes exactly one send; its enquiry type is the form's subject,
      which is never empty, so the handler's "General Enquiry" fallback is not
      used for it. */
  lemma FormRequestIsAccepted(p: ContactForm.Page, sendSucceeds: bool, received: string)
    requires ContactForm.Begin(p).Pending?
    ensures var d := ContactForm.Begin(p).data;
      var out := Handler.Handle(Request(d), sendSucceeds, received);
      && Handler.Accepted(Request(d))
      && |out.sent| == 1
      && out.sent[0].replyTo == [d.name + " <" + d.email + ">"]
      && out.sent[0].subject == Handler.SubjectPrefix + d.subject + " from " + d.name
  {
    var d := ContactForm.Begin(p).data;
    ContactForm.RequestIsClean(p);
    var s := Handler.ReadBody(Request(d).body).value;
    assert Handler.EnquiryType(s) == d.subject;
  }

  /** The form shows success exactly when the handler's send went through;
      otherwise it shows the handler's failure text and keeps what was typed. */
  lemma FormShowsHandlerVerdict(p: ContactForm.Page, sendSucceeds: bool, received: string)
    requires ContactForm.Begin(p).Pending?
    ensures var d := ContactForm.Begin(p).data;
      var out := Handler.Handle(Request(d), sendSucceeds, received);
      var shown := ContactForm.Settle(ContactForm.Begin(p).page, Answer(out.response));
      && (shown.alert.value.kind == Success <==> sendSucceeds)
      && (!sendSucceeds ==> shown.alert.value.message == Handler.FailureMessage && shown.inputs == p.inputs)
      && (sendSucceeds ==> shown.inputs == p.defaults)
      && !shown.loading
  {
    FormRequestIsAccepted(p, sendSucceeds, received);
  }

  /** A bot that fills the honeypot is turned away by the form before any
      request; one that posts to the handler directly gets the same 200 a real
      send gets, but nothing is sent. */
  lemma HoneypotOnBothSides(p: ContactForm.Page, d: ContactForm.FormData, ok: bool, received: string)
    requires ContactForm.Normalize(p.inputs).website != ""
    requires d.name != "" && d.email != "" && d.message != "" && d.website != ""
    ensures ContactForm.Begin(p).Settled?
    ensures var out := Handler.Handle(Request(d), ok, received);
      out.response.status == 200 && out.sent == []
  {
  }
}

=== FILE: handler.dfy ===
/**
  The contact-form Lambda handler: answers the CORS preflight, reads the
  submission, rejects missing fields, soft-rejects the honeypot, builds the
  e-mail for the mail service, sends it once and classifies the outcome as
  200, 400 or 500. The mail service is abstracted to whether its `send`
  succeeded, and the clock to the text the handler prints as "Received".
*/
module Handler {
  import opened Js

  /** A submission as the handler reads it; an absent field reads as "". */
  datatype Submission = Submission(
    name: string, email: string, message: string, phone: string,
    company: string, subject: string, website: string)

  /** `event.body`: JSON text still to be parsed, an already parsed object, or
      `null`/`undefined`. */
  datatype EventBody = Text(parsed: Parsed<Submission>) | Object(fields: Submission) | Missing

  datatype Event = Event(verb: string, body: EventBody)

  datatype ResponseBody = Empty | Json(success: bool, message: string)

  datatype Header = Header(key: string, value: string)

  datatype Response = Response(status: int, headers: seq<Header>, body: ResponseBody)

  /** One labelled `.field` row of the HTML notification. */
  datatype HtmlField = HtmlField(caption: string, value: string)

  /** The HTML notification: its labelled rows and its "Received" footer. */
  datatype HtmlBody = HtmlBody(fields: seq<HtmlField>, received: string)

  /** The `SendEmailCommand` parameters. */
  datatype Email = Email(
    source: string, to: seq<string>, subject: string,
    html: HtmlBody, text: string, replyTo: seq<string>)

  /** What one invocation did: its response and the e-mails it handed to the
      mail service (the send attempts). */
  datatype Outcome = Outcome(response: Response, sent: seq<Email>)

  const CorsHeaders: seq<Header> := [
    Header("Access-Control-Allow-Origin", "*"),
    Header("Access-Control-Allow-Headers", "Content-Type"),
    Header("Access-Control-Allow-Methods", "POST, OPTIONS")
  ]

  const Sender := "ShailajaPrinters <shailajaprinters@gmail.com>"
  const Inbox := "shailajaprinters@gmail.com"
  const DefaultEnquiry := "General Enquiry"
  /** The printer emoji (U+1F5A8 with variation selector) and the site name. */
  const SubjectPrefix := "\U{1F5A8}\U{FE0F} ShailajaPrinters - "

  const MissingFieldsMessage := "Missing required fields"
  const HoneypotMessage := "Thank you for your message!"
  const SentMessage := "Thank you! Your message has been sent successfully."
  const FailureMessage := "Sorry, there was an error sending your message. Please try again or email us directly."

  const NameLabel := "Customer Name:"
  const EmailLabel := "Email Address:"
  const PhoneLabel := "Phone Number:"
  const CompanyLabel := "Company:"
  const EnquiryLabel := "Enquiry Type:"
  const MessageLabel := "Message:"

  /** The body as a record, or `None` when reading it throws: `JSON.parse`
      rejects the text, or the body is `null` so that `body.name` throws. */
  function ReadBody(b: EventBody): Option<Submission> {
    match b
    case Text(Parsed(s)) => Some(s)
    case Text(_) => None
    case Object(s) => Some(s)
    case Missing => None
  }

  predicate HasRequired(s: Submission) {
    s.name != "" && s.email != "" && s.message != ""
  }

  /** The submission would be sent: not a preflight, readable, complete, and
      the honeypot left empty. */
  predicate Accepted(e: Event) {
    && e.verb != "OPTIONS"
    && ReadBody(e.body).Some?
    && HasRequired(ReadBody(e.body).value)
    && ReadBody(e.body).value.website == ""
  }

  /** `body.subject || 'General Enquiry'` */
  function EnquiryType(s: Submission): (t: string)
    ensures t != ""
    ensures s.subject != "" ==> t == s.subject
    ensures s.subject == "" ==> t == DefaultEnquiry
  {
    if s.subject != "" then s.subject else DefaultEnquiry
  }

  /** `message.replace(/\n/g, '<br>')` */
  function HtmlLineBreaks(m: string): (r: string)
    ensures '\n' !in r
    ensures |r| == |m| + 3 * Count(m, '\n')
    ensures '\n' !in m ==> r == m
  {
    if m == [] then [] else
      var rest := HtmlLineBreaks(m[1..]);
      assert m == [m[0]] + m[1..];
      (if m[0] == '\n' then "<br>" else [m[0]]) + rest
  }

  /** The replacement works character by character, so it distributes over
      concatenation: nothing but the line breaks changes. */
  lemma {:induction false} HtmlLineBreaksAppend(a: string, b: string)
    ensures HtmlLineBreaks(a + b) == HtmlLineBreaks(a) + HtmlLineBreaks(b)
  {
    if a != [] {
      var c, tail := a[0], a[1..];
      assert a == [c] + tail;
      assert a + b == [c] + (tail + b);
      HtmlLineBreaksAppend(tail, b);
      HtmlLineBreaksCons(c, tail);
      HtmlLineBreaksCons(c, tail + b);
      var head, x, y := if c == '\n' then "<br>" else [c], HtmlLineBreaks(tail), HtmlLineBreaks(b);
      assert head + (x + y) == (head + x) + y;
    } else {
      assert a + b == b;
    }
  }

  /** One step of the replacement: the first character, then the rest. */
  lemma HtmlLineBreaksCons(c: char, rest: string)
    ensures HtmlLineBreaks([c] + rest) == (if c == '\n' then "<br>" else [c]) + HtmlLineBreaks(rest)
  {
    assert ([c] + rest)[0] == c && ([c] + rest)[1..] == rest;
  }

  /** Turns each `<br>` back into a line break. */
  function RestoreLineBreaks(h: string): string
    decreases |h|
  {
    if StartsWith(h, "<br>") then "\n" + RestoreLineBreaks(h[4..])
    else if h == [] then []
    else [h[0]] + RestoreLineBreaks(h[1..])
  }

  /** For a message without '<' the replacement loses nothing: the original
      text can be read back from the HTML. */
  lemma {:induction false} HtmlLineBreaksRoundTrip(m: string)
    requires '<' !in m
    ensures RestoreLineBreaks(HtmlLineBreaks(m)) == m
  {
    if m != [] {
      var rest := HtmlLineBreaks(m[1..]);
      assert '<' !in m[1..];
      HtmlLineBreaksRoundTrip(m[1..]);
      assert m == [m[0]] + m[1..];
      HtmlLineBreaksCons(m[0], m[1..]);
      if m[0] == '\n' {
        RestoreBreak(rest);
      } else {
        RestoreChar(m[0], rest);
      }
    }
  }

  lemma RestoreBreak(rest: string)
    ensures RestoreLineBreaks("<br>" + rest) == "\n" + RestoreLineBreaks(rest)
  {
    var h := "<br>" + rest;
    assert StartsWith(h, "<br>") && h[4..] == rest;
  }

  lemma RestoreChar(c: char, rest: string)
    requires c != '<'
    ensures RestoreLineBreaks([c] + rest) == [c] + RestoreLineBreaks(rest)
  {
    var h := [c] + rest;
    assert h[0] == c;
    assert !StartsWith(h, "<br>");
    assert h[1..] == rest;
  }

  lemma LabelsDistinct()
    ensures NameLabel != EmailLabel && NameLabel != PhoneLabel && NameLabel != CompanyLabel
    ensures NameLabel != EnquiryLabel && NameLabel != MessageLabel
    ensures EmailLabel != PhoneLabel && EmailLabel != CompanyLabel && EmailLabel != EnquiryLabel
    ensures EmailLabel != MessageLabel && PhoneLabel != CompanyLabel && PhoneLabel != EnquiryLabel
    ensures PhoneLabel != MessageLabel && CompanyLabel != EnquiryLabel && EnquiryLabel != MessageLabel
    ensures CompanyLabel != MessageLabel
  {
    assert CompanyLabel[1] != MessageLabel[1];
  }

  /** The rows of the HTML notification. The phone and company rows appear
      only for non-empty values. */
  function HtmlFields(s: Submission): (f: seq<HtmlField>)
    ensures |f| == 4 + (if s.phone != "" then 1 else 0) + (if s.company != "" then 1 else 0)
    ensures forall i, j :: 0 <= i < j < |f| ==> f[i].caption != f[j].caption
    ensures (exists i :: 0 <= i < |f| && f[i].caption == PhoneLabel) <==> s.phone != ""
    ensures (exists i :: 0 <= i < |f| && f[i].caption == CompanyLabel) <==> s.company != ""
    ensures forall i :: 0 <= i < |f| && f[i].caption == PhoneLabel ==> f[i].value == s.phone
    ensures forall i :: 0 <= i < |f| && f[i].caption == CompanyLabel ==> f[i].value == s.company
    ensures f[0] == HtmlField(NameLabel, s.name) && f[1] == HtmlField(EmailLabel, s.email)
    ensures s.phone != "" ==> f[2].caption == PhoneLabel
    ensures s.company != "" ==> f[|f| - 3].caption == CompanyLabel
    ensures f[|f| - 2] == HtmlField(EnquiryLabel, EnquiryType(s))
    ensures f[|f| - 1] == HtmlField(MessageLabel, HtmlLineBreaks(s.message))
  {
    LabelsDistinct();
    var name, email := HtmlField(NameLabel, s.name), HtmlField(EmailLabel, s.email);
    var phone, company := HtmlField(PhoneLabel, s.phone), HtmlField(CompanyLabel, s.company);
    var enquiry, message := HtmlField(EnquiryLabel, EnquiryType(s)), HtmlField(MessageLabel, HtmlLineBreaks(s.message));
    if s.phone != "" && s.company != "" then
      var f := [name, email, phone, company, enquiry, message];
      assert f[2] == phone && f[3] == company;
      f
    else if s.phone != "" then
      var f := [name, email, phone, enquiry, message];
      assert f[2] == phone;
      f
    else if s.company != "" then
      var f := [name, email, company, enquiry, message];
      assert f[2] == company;
      f
    else [name, email, enquiry, message]
  }

  /** The 50-character rule drawn with `'='.repeat(50)`. */
  const Rule := "=================================================="

  /** Line numbers of the plain-text template. */
  const PhoneLine := 7
  const CompanyLine := 8
  const EnquiryLine := 11
  const MessageLine := 14

  /** The plain-text template, line by line. The template opens with a line
      break and closes with the indentation before its closing quote. */
  function TextLines(s: Submission, received: string): (lines: seq<string>)
    ensures |lines| == 20
    ensures lines[PhoneLine] != "" <==> s.phone != ""
    ensures lines[CompanyLine] != "" <==> s.company != ""
    ensures lines[EnquiryLine] == EnquiryType(s)
    ensures lines[MessageLine] == s.message
  {
    [ "",
      "NEW ENQUIRY - ShailajaPrinters.com",
      Rule,
      "",
      "CUSTOMER DETAILS:",
      "Name: " + s.name,
      "Email: " + s.email,
      if s.phone != "" then "Phone: " + s.phone else "",
      if s.company != "" then "Company: " + s.company else "",
      "",
      "ENQUIRY TYPE:",
      EnquiryType(s),
      "",
      "MESSAGE:",
      s.message,
      "",
      Rule,
      "Received: " + received,
      "Source: ShailajaPrinters Contact Form (shailajaprinters.com)",
      "                        " ]
  }

  function TextBody(s: Submission, received: string): string {
    Join(TextLines(s, received), '\n')
  }

  /** The plain-text body carries the message exactly as submitted, and the
      phone and company whenever they were given. */
  lemma TextBodyCarries(s: Submission, received: string)
    ensures Includes(TextBody(s, received), s.message)
    ensures s.phone != "" ==> Includes(TextBody(s, received), "Phone: " + s.phone)
    ensures s.company != "" ==> Includes(TextBody(s, received), "Company: " + s.company)
  {
    var lines := TextLines(s, received);
    JoinIncludes(lines, '\n', MessageLine);
    JoinIncludes(lines, '\n', PhoneLine);
    JoinIncludes(lines, '\n', CompanyLine);
  }

  /** The row with the given caption, if any. */
  function FieldValue(f: seq<HtmlField>, caption: string): Option<string> {
    if f == [] then None
    else if f[0].caption == caption then Some(f[0].value)
    else FieldValue(f[1..], caption)
  }

  /** The `SendEmailCommand` parameters for a submission. */
  function BuildEmail(s: Submission, received: string): (m: Email)
    ensures m.source == Sender && m.to == [Inbox]
    ensures m.replyTo == [s.name + " <" + s.email + ">"]
    ensures FieldValue(m.html.fields, EnquiryLabel) == Some(EnquiryType(s))
    ensures m.html == HtmlBody(HtmlFields(s), received) && m.text == TextBody(s, received)
    ensures m.subject == SubjectPrefix + EnquiryType(s) + " from " + s.name
  {
    var fields := HtmlFields(s);
    assert FieldValue(fields, EnquiryLabel) == Some(EnquiryType(s)) by {
      var n := |fields|;
      assert fields[..n - 2] + fields[n - 2..] == fields;
      FieldValueSkip(fields[..n - 2], fields[n - 2..], EnquiryLabel);
    }
    Email(
      Sender, [Inbox],
      SubjectPrefix + EnquiryType(s) + " from " + s.name,
      HtmlBody(fields, received),
      TextBody(s, received),
      [s.name + " <" + s.email + ">"])
  }

  /** What the sent e-mail carries: the message verbatim in the text body and
      with every line feed turned into `<br>` in the HTML body; the phone and
      company in both bodies exactly when given; and one enquiry type in the
      subject, the HTML body and the text body. */
  lemma EmailCarries(s: Submission, received: string)
    ensures var m := BuildEmail(s, received);
      && Includes(m.text, s.message)
      && FieldValue(m.html.fields, MessageLabel) == Some(HtmlLineBreaks(s.message))
      && '\n' !in FieldValue(m.html.fields, MessageLabel).value
      && (s.phone != "" ==> Includes(m.text, "Phone: " + s.phone) && FieldValue(m.html.fields, PhoneLabel) == Some(s.phone))
      && (s.company != "" ==> Includes(m.text, "Company: " + s.company) && FieldValue(m.html.fields, CompanyLabel) == Some(s.company))
      && (s.phone == "" ==> FieldValue(m.html.fields, PhoneLabel).None?)
      && (s.company == "" ==> FieldValue(m.html.fields, CompanyLabel).None?)
      && TextLines(s, received)[EnquiryLine] == EnquiryType(s)
      && FieldValue(m.html.fields, EnquiryLabel) == Some(EnquiryType(s))
  {
    var f := HtmlFields(s);
    var n := |f|;
    TextBodyCarries(s, received);
    assert f[..n - 1] + f[n - 1..] == f;
    FieldValueSkip(f[..n - 1], f[n - 1..], MessageLabel);
    FieldValueFinds(f, PhoneLabel);
    FieldValueFinds(f, CompanyLabel);
  }

  /** In rows with distinct captions, a caption's lookup finds its row, and
      finds nothing when no row carries it. */
  lemma {:induction false} FieldValueFinds(f: seq<HtmlField>, caption: string)
    requires forall i, j :: 0 <= i < j < |f| ==> f[i].caption != f[j].caption
    ensures (forall i :: 0 <= i < |f| ==> f[i].caption != caption) ==> FieldValue(f, caption).None?
    ensures forall i :: 0 <= i < |f| && f[i].caption == caption ==> FieldValue(f, caption) == Some(f[i].value)
  {
    if f != [] {
      FieldValueFinds(f[1..], caption);
      forall i | 0 < i < |f| && f[i].caption == caption
        ensures FieldValue(f, caption) == Some(f[i].value)
      {
        assert f[1..][i - 1] == f[i];
      }
      if forall i :: 0 <= i < |f| ==> f[i].caption != caption {
        assert forall i :: 0 <= i < |f| - 1 ==> f[1..][i].caption != caption by {
          forall i | 0 <= i < |f| - 1 ensures f[1..][i].caption != caption {
            assert f[1..][i] == f[i + 1];
          }
        }
      }
    }
  }

  /** Looking a caption up skips the rows that carry another caption. */
  lemma {:induction false} FieldValueSkip(a: seq<HtmlField>, b: seq<HtmlField>, caption: string)
    requires forall i :: 0 <= i < |a| ==> a[i].caption != caption
    ensures FieldValue(a + b, caption) == FieldValue(b, caption)
  {
    if a != [] {
      assert (a + b)[1..] == a[1..] + b;
      FieldValueSkip(a[1..], b, caption);
    } else {
      assert a + b == b;
    }
  }

  function Reply(status: int, body: ResponseBody): Response {
    Response(status, CorsHeaders, body)
  }

  /** `exports.handler`: one invocation, given whether the mail service's
      `send` succeeds and the "Received" text of the moment. */
  function Handle(e: Event, sendSucceeds: bool, received: string): (r: Outcome)
    // every path carries the same CORS headers
    ensures r.response.headers == CorsHeaders
    ensures r.response.status in {200, 400, 500}
    // the preflight is answered before the body is looked at
    ensures e.verb == "OPTIONS" ==> r.response == Reply(200, Empty) && r.sent == []
    ensures r.response.body == Empty <==> e.verb == "OPTIONS"
    // a JSON answer reports success exactly when the status is 200
    ensures r.response.body.Json? ==> (r.response.body.success <==> r.response.status == 200)
    // missing fields are rejected whatever the honeypot holds
    ensures e.verb != "OPTIONS" && ReadBody(e.body).Some? && !HasRequired(ReadBody(e.body).value)
      ==> r.response == Reply(400, Json(false, MissingFieldsMessage)) && r.sent == []
    // a filled honeypot on a complete submission is answered as if it were sent
    ensures e.verb != "OPTIONS" && ReadBody(e.body).Some? && HasRequired(ReadBody(e.body).value)
        && ReadBody(e.body).value.website != ""
      ==> r.response == Reply(200, Json(true, HoneypotMessage)) && r.sent == []
    // at most one send, made exactly for accepted submissions, with their e-mail
    ensures |r.sent| <= 1
    ensures |r.sent| == 1 <==> Accepted(e)
    ensures Accepted(e) ==> r.sent[0] == BuildEmail(ReadBody(e.body).value, received)
    ensures Accepted(e) ==> r.response == if sendSucceeds then Reply(200, Json(true, SentMessage))
                                          else Reply(500, Json(false, FailureMessage))
    // an unreadable body ends in the generic failure
    ensures e.verb != "OPTIONS" && ReadBody(e.body).None?
      ==> r.response == Reply(500, Json(false, FailureMessage)) && r.sent == []
  {
    if e.verb == "OPTIONS" then
      Outcome(Reply(200, Empty), [])
    else
      match ReadBody(e.body)
      case None => Outcome(Reply(500, Json(false, FailureMessage)), [])
      case Some(s) =>
        if !HasRequired(s) then
          Outcome(Reply(400, Json(false, MissingFieldsMessage)), [])
        else if s.website != "" then
          Outcome(Reply(200, Json(true, HoneypotMessage)), [])
        else
          var m := BuildEmail(s, received);
          if sendSucceeds then Outcome(Reply(200, Json(true, SentMessage)), [m])
          else Outcome(Reply(500, Json(false, FailureMessage)), [m])
  }

  /** The status alone classifies the invocation: 200 for a preflight, a
      honeypot hit or a successful send; 400 for a readable but incomplete
      submission; 500 for an unreadable body or a failed send. */
  lemma StatusClassification(e: Event, sendSucceeds: bool, received: string)
    ensures var status := Handle(e, sendSucceeds, received).response.status;
      && (status == 400 <==> e.verb != "OPTIONS" && ReadBody(e.body).Some? && !HasRequired(ReadBody(e.body).value))
      && (status == 500 <==> e.verb != "OPTIONS" && (ReadBody(e.body).None? || (Accepted(e) && !sendSucceeds)))
      && (status == 200 <==> e.verb == "OPTIONS" || (ReadBody(e.body).Some? && HasRequired(ReadBody(e.body).value)
                                                     && (ReadBody(e.body).value.website != "" || sendSucceeds)))
  {
  }

  /** A preflight's answer does not depend on the body, however malformed. */
  lemma PreflightIgnoresBody(b1: EventBody, b2: EventBody, ok1: bool, ok2: bool, t1: string, t2: string)
    ensures Handle(Event("OPTIONS", b1), ok1, t1) == Handle(Event("OPTIONS", b2), ok2, t2)
  {
  }

  /** The mail service's behaviour matters only to accepted submissions. */
  lemma SendOutcomeOnlyMattersWhenSent(e: Event, received: string)
    requires !Accepted(e)
    ensures Handle(e, true, received) == Handle(e, false, received)
  {
  }

  /** A JSON text and the object it parses to are handled alike. */
  lemma TextAndObjectAgree(verb: string, s: Submission, ok: bool, received: string)
    ensures Handle(Event(verb, Text(Parsed(s))), ok, received) == Handle(Event(verb, Object(s)), ok, received)
  {
  }
}

=== FILE: js.dfy ===
/**
  Values and string primitives the JavaScript sources lean on, stated over
  `seq<char>`: JavaScript white space (the regex class `\s` and the set that
  `String.prototype.trim` strips), `trim`, `startsWith`, `includes`,
  `indexOf` and `split` on a single character, and the outcome of
  `JSON.parse`.
*/
module Js {

  /** `null`/`undefined` or a value. */
  datatype Option<+T> = None | Some(value: T) {
    function GetOr(default: T): T {
      match this
      case Some(v) => v
      case None => default
    }
  }

  /** What `JSON.parse` (or `response.json()`) yields: it throws on malformed
      text, may produce `null`, or produces a value of the expected shape. */
  datatype Parsed<+T> = Unparsable | ParsedNull | Parsed(value: T)

  /** White space in the JavaScript sense: the WhiteSpace and LineTerminator
      code points, which is both what `\s` matches and what `trim` strips. */
  predicate IsSpace(c: char) {
    || c == ' ' || c == '\t' || c == '\n' || c == '\r' || c == '\U{B}' || c == '\U{C}'
    || c == '\U{A0}' || c == '\U{1680}' || ('\U{2000}' <= c <= '\U{200A}')
    || c == '\U{2028}' || c == '\U{2029}' || c == '\U{202F}' || c == '\U{205F}'
    || c == '\U{3000}' || c == '\U{FEFF}'
  }

  predicate AllSpace(s: string) {
    forall k :: 0 <= k < |s| ==> IsSpace(s[k])
  }

  predicate NoSpace(s: string) {
    forall k :: 0 <= k < |s| ==> !IsSpace(s[k])
  }

  /** Neither begins nor ends with white space. */
  predicate IsTrimmed(s: string) {
    s == [] || (!IsSpace(s[0]) && !IsSpace(s[|s| - 1]))
  }

  /** `r` is what is left of `s` once the white space at both ends is cut off:
      the reference meaning of `trim`. */
  ghost predicate IsTrimOf(r: string, s: string) {
    exists i :: 0 <= i <= |s| - |r| && r == s[i..i + |r|]
      && AllSpace(s[..i]) && AllSpace(s[i + |r|..]) && IsTrimmed(r)
  }

  /** `s.trimStart()` */
  function TrimStart(s: string): string {
    if |s| > 0 && IsSpace(s[0]) then TrimStart(s[1..]) else s
  }

  /** `trimStart` cuts a run of white space off the front and stops at the
      first other character. */
  lemma {:induction false} TrimStartMeaning(s: string)
    ensures var r := TrimStart(s);
      && |r| <= |s| && r == s[|s| - |r|..]
      && AllSpace(s[..|s| - |r|])
      && (r == [] || !IsSpace(r[0]))
  {
    if |s| > 0 && IsSpace(s[0]) {
      TrimStartMeaning(s[1..]);
      var r := TrimStart(s[1..]);
      assert s[..|s| - |r|] == [s[0]] + s[1..][..|s| - 1 - |r|];
    }
  }

  /** `s.trimEnd()` */
  function TrimEnd(s: string): string {
    if |s| > 0 && IsSpace(s[|s| - 1]) then TrimEnd(s[..|s| - 1]) else s
  }

  /** `trimEnd` cuts a run of white space off the back and stops at the last
      other character. */
  lemma {:induction false} TrimEndMeaning(s: string)
    ensures var r := TrimEnd(s);
      && |r| <= |s| && r == s[..|r|]
      && AllSpace(s[|r|..])
      && (r == [] || !IsSpace(r[|r| - 1]))
  {
    if |s| > 0 && IsSpace(s[|s| - 1]) {
      TrimEndMeaning(s[..|s| - 1]);
      var r := TrimEnd(s[..|s| - 1]);
      assert s[|r|..] == s[..|s| - 1][|r|..] + [s[|s| - 1]];
    }
  }

  /** `s.trim()`; `TrimMeaning` states what it computes. */
  function Trim(s: string): string {
    TrimEnd(TrimStart(s))
  }

  /** `trim` cuts exactly the white space at both ends. */
  lemma TrimMeaning(s: string)
    ensures IsTrimOf(Trim(s), s)
  {
    var t := TrimStart(s);
    var r := TrimEnd(t);
    TrimStartMeaning(s);
    TrimEndMeaning(t);
    var i := |s| - |t|;
    assert t == s[i..];
    assert r == t[..|r|] == s[i..i + |r|];
    assert s[i + |r|..] == t[|r|..];
    assert AllSpace(s[..i]) && AllSpace(s[i + |r|..]);
    assert IsTrimmed(r) by {
      if r != [] { assert r[0] == t[0]; }
    }
  }

  /** Cutting leading white space stops at the first non-space character. */
  lemma {:induction false} TrimStartAt(s: string, i: nat)
    requires i <= |s| && AllSpace(s[..i]) && (i == |s| || !IsSpace(s[i]))
    ensures TrimStart(s) == s[i..]
  {
    if i > 0 {
      assert s[0] == s[..i][0];
      assert s[1..][..i - 1] == s[..i][1..];
      TrimStartAt(s[1..], i - 1);
      assert s[1..][i - 1..] == s[i..];
    }
  }

  /** Cutting trailing white space stops after the last non-space character. */
  lemma {:induction false} TrimEndAt(s: string, j: nat)
    requires j <= |s| && AllSpace(s[j..]) && (j == 0 || !IsSpace(s[j - 1]))
    ensures TrimEnd(s) == s[..j]
    decreases |s|
  {
    if j < |s| {
      assert s[|s| - 1] == s[j..][|s| - 1 - j];
      var u := s[..|s| - 1];
      assert u[j..] == s[j..][..|s| - 1 - j];
      TrimEndAt(u, j);
      assert u[..j] == s[..j];
    }
  }

  /** The reference meaning pins the result down: there is only one way to cut
      white space off both ends. */
  lemma TrimOfIsUnique(r: string, s: string)
    requires IsTrimOf(r, s)
    ensures r == Trim(s)
  {
    var i :| 0 <= i <= |s| - |r| && r == s[i..i + |r|]
      && AllSpace(s[..i]) && AllSpace(s[i + |r|..]) && IsTrimmed(r);
    TrimAt(r, s, i);
  }

  lemma TrimAt(r: string, s: string, i: nat)
    requires i <= |s| - |r| && r == s[i..i + |r|]
    requires AllSpace(s[..i]) && AllSpace(s[i + |r|..]) && IsTrimmed(r)
    ensures Trim(s) == r
  {
    if r == [] {
      assert AllSpace(s[..|s|]) by {
        forall k | 0 <= k < |s| ensures IsSpace(s[k]) {
          if k < i { assert s[..i][k] == s[k]; } else { assert s[i..][k - i] == s[k]; }
        }
      }
      TrimStartAt(s, |s|);
    } else {
      assert r[0] == s[i];
      TrimStartAt(s, i);
      var t := s[i..];
      assert t[|r|..] == s[i + |r|..];
      assert t[|r| - 1] == r[|r| - 1];
      TrimEndAt(t, |r|);
      assert t[..|r|] == r;
    }
  }

  /** Trimming an already trimmed string changes nothing. */
  lemma TrimIdempotent(s: string)
    ensures Trim(Trim(s)) == Trim(s)
  {
    var t := Trim(s);
    TrimMeaning(s);
    assert IsTrimOf(t, t) by {
      assert t == t[0..0 + |t|];
      assert t[..0] == [] && t[0 + |t|..] == [];
    }
    TrimOfIsUnique(t, t);
  }

  /** `s.startsWith(p)`, equivalently `s.indexOf(p) === 0`. */
  predicate StartsWith(s: string, p: string) {
    |p| <= |s| && s[..|p|] == p
  }

  /** `p` occurs in `s` starting at position `i`. */
  predicate OccursAt(s: string, p: string, i: int) {
    0 <= i <= |s| - |p| && s[i..i + |p|] == p
  }

  /** `s.includes(p)` */
  function Includes(s: string, p: string): (b: bool)
    ensures b <==> exists i :: OccursAt(s, p, i)
    decreases |s|
  {
    if StartsWith(s, p) then
      assert OccursAt(s, p, 0);
      true
    else if |s| == 0 then
      false
    else
      var b := Includes(s[1..], p);
      assert b ==> exists i :: OccursAt(s, p, i) by {
        if b {
          var i :| OccursAt(s[1..], p, i);
          assert s[1..][i..i + |p|] == s[i + 1..i + 1 + |p|];
          assert OccursAt(s, p, i + 1);
        }
      }
      assert (exists i :: OccursAt(s, p, i)) ==> b by {
        if exists i :: OccursAt(s, p, i) {
          var i :| OccursAt(s, p, i);
          assert i != 0;
          assert s[1..][i - 1..i - 1 + |p|] == s[i..i + |p|];
          assert OccursAt(s[1..], p, i - 1);
        }
      }
      b
  }

  /** `s.indexOf(c)` for a character that occurs. */
  function IndexOf(s: string, c: char): (k: nat)
    requires c in s
    ensures k < |s| && s[k] == c && c !in s[..k]
  {
    if s[0] == c then 0 else
      var k := IndexOf(s[1..], c);
      assert s[..k + 1] == [s[0]] + s[1..][..k];
      k + 1
  }

  /** How many times `c` occurs in `s`. */
  function Count(s: string, c: char): (n: nat)
    ensures n == 0 <==> c !in s
    ensures n <= |s|
  {
    if s == [] then 0 else
      var n := Count(s[1..], c);
      assert s == [s[0]] + s[1..];
      if s[0] == c then n + 1 else n
  }

  lemma {:induction false} CountAppend(a: string, b: string, c: char)
    ensures Count(a + b, c) == Count(a, c) + Count(b, c)
  {
    if a == [] {
      assert a + b == b;
    } else {
      assert (a + b)[1..] == a[1..] + b;
      CountAppend(a[1..], b, c);
    }
  }

  /** `parts.join(sep)` */
  function Join(parts: seq<string>, sep: char): string
    requires |parts| >= 1
  {
    if |parts| == 1 then parts[0] else parts[0] + [sep] + Join(parts[1..], sep)
  }

  /** `s.split(sep)` for a one-character separator: the pieces between the
      separators, in order, always at least one. */
  function Split(s: string, sep: char): (parts: seq<string>)
    ensures |parts| >= 1
    ensures forall i :: 0 <= i < |parts| ==> sep !in parts[i]
    ensures Join(parts, sep) == s
    decreases |s|
  {
    if sep in s then
      var k := IndexOf(s, sep);
      var rest := Split(s[k + 1..], sep);
      assert s == s[..k] + [sep] + s[k + 1..];
      [s[..k]] + rest
    else
      [s]
  }

  /** Splitting undoes joining pieces that do not contain the separator. */
  lemma {:induction false} SplitJoin(parts: seq<string>, sep: char)
    requires |parts| >= 1
    requires forall i :: 0 <= i < |parts| ==> sep !in parts[i]
    ensures Split(Join(parts, sep), sep) == parts
    decreases |parts|
  {
    if |parts| > 1 {
      var a, rest := parts[0], Join(parts[1..], sep);
      var s := a + [sep] + rest;
      assert s[..|a|] == a && s[|a|] == sep;
      assert IndexOf(s, sep) == |a|;
      assert s[|a| + 1..] == rest;
      SplitJoin(parts[1..], sep);
    } else {
      assert sep !in parts[0];
    }
  }

  /** Every piece of a join can be found in the joined text. */
  lemma {:induction false} JoinIncludes(parts: seq<string>, sep: char, k: nat)
    requires k < |parts|
    ensures Includes(Join(parts, sep), parts[k])
    decreases |parts|
  {
    var s := Join(parts, sep);
    if k == 0 {
      assert OccursAt(s, parts[0], 0);
    } else {
      JoinIncludes(parts[1..], sep, k - 1);
      var t := Join(parts[1..], sep);
      var i :| OccursAt(t, parts[k], i);
      var off := |parts[0]| + 1;
      assert s == parts[0] + [sep] + t;
      assert s[off + i..off + i + |parts[k]|] == t[i..i + |parts[k]|];
      assert OccursAt(s, parts[k], off + i);
    }
  }
}

=== FILE: ui.dfy ===
/** The alert both client controllers show above the contact form. */
module Ui {

  /** The Bootstrap alert style: `alert-success` or `alert-danger`. */
  datatype Kind = Success | Danger

  datatype Alert = Alert(kind: Kind, message: string)
}

=== FILE: vue_app.dfy ===
/**
  The Vue contact form: its email check, the two halves of `submitForm`
  (the checks up to the request, then the handling of what the request
  returned), and the alert `mounted` derives from the `?sent=` query
  parameter of a server redirect. `fetch` is reduced to what it returned;
  the component's reactive fields to a `State` value.
*/
module VueApp {
  import opened Js
  import opened Ui
  import EmailRegex

  datatype Form = Form(name: string, email: string, message: string, website: string)

  /** The form as the component declares it, and as a successful send leaves it. */
  const EmptyForm := Form("", "", "", "")

  datatype State = State(form: Form, touched: bool, alert: Option<Alert>, submitting: bool)

  const Initial := State(EmptyForm, false, None, false)

  const FixErrorsMessage := "Please fix the errors and try again."
  const ReceivedMessage := "Thanks! Your message has been received."
  const SentMessage := "Thanks! Your message has been sent."
  const GenericError := "Something went wrong sending your message. Please try again later."
  const NetworkMessage := "Network error. Please check your connection and try again."
  const RedirectSentMessage := "Message sent successfully."
  const RedirectFailedMessage := "There was a problem sending your message."
  const JsonType := "application/json"

  /** `validEmail`: an empty address is rejected outright, anything else is
      matched against `^[^@\s]+@[^@\s]+\.[^@\s]+$`. */
  function ValidEmail(email: string): (ok: bool)
    ensures ok <==> EmailRegex.MatchesPattern(email)
  {
    EmailRegex.TestIsPattern(email);
    if email == "" then false else EmailRegex.Test(email)
  }

  /** The `valid` test of `submitForm`. */
  predicate FieldsValid(f: Form) {
    f.name != "" && ValidEmail(f.email) && f.message != ""
  }

  /** The JSON body of the request. */
  datatype PostBody = PostBody(name: string, email: string, message: string)

  /** `submitForm` up to the `await`: either it has already settled, or it
      is waiting for the answer to a request with this body. */
  datatype Begun = Settled(state: State) | Pending(state: State, body: PostBody)

  function Begin(s: State): (b: Begun)
    ensures b.state.touched && b.state.form == s.form
    ensures b.Pending? <==> FieldsValid(s.form) && s.form.website == ""
    ensures !FieldsValid(s.form) ==> b.state.alert == Some(Alert(Danger, FixErrorsMessage))
    ensures FieldsValid(s.form) && s.form.website != "" ==> b.state.alert == Some(Alert(Success, ReceivedMessage))
    ensures b.Settled? ==> b.state.submitting == s.submitting
    ensures b.Pending? ==> b.state.submitting && b.state.alert.None?
    ensures b.Pending? ==> b.body == PostBody(s.form.name, s.form.email, s.form.message)
  {
    var s := s.(touched := true, alert := None);
    if !FieldsValid(s.form) then Settled(s.(alert := Some(Alert(Danger, FixErrorsMessage))))
    else if s.form.website != "" then Settled(s.(alert := Some(Alert(Success, ReceivedMessage))))
    else Pending(s.(submitting := true), PostBody(s.form.name, s.form.email, s.form.message))
  }

  /** The fields `submitForm` reads from a JSON reply; an absent or falsy
      field is `false` or `""`. */
  datatype ReplyData = ReplyData(success: bool, message: string, error: string)

  /** What the request came to: `fetch` threw, or a response arrived with its
      `ok` flag, its content type (`""` when absent) and the outcome of
      `resp.json()`. */
  datatype Outcome = NetworkError | Received(ok: bool, contentType: string, json: Parsed<ReplyData>)

  /** The reply counts as a successful send: an OK response that is either
      not JSON or JSON saying `success`. */
  predicate Delivered(o: Outcome) {
    && o.Received? && o.ok
    && (Includes(o.contentType, JsonType) ==> o.json.Parsed? && o.json.value.success)
  }

  /** The text of the danger alert for an outcome that is not `Delivered`. */
  function FailureText(o: Outcome): string {
    if o.NetworkError? then NetworkMessage
    else if Includes(o.contentType, JsonType) && o.json.Parsed? && o.json.value.error != "" then o.json.value.error
    else GenericError
  }

  /** `submitForm` after the `await`. */
  function Settle(s: State, o: Outcome): (r: State)
    ensures !r.submitting && r.alert.Some?
    ensures r.alert.value.kind == Success <==> Delivered(o)
    ensures Delivered(o) ==> r.form == EmptyForm && !r.touched
    ensures Delivered(o) ==>
      r.alert.value.message == if Includes(o.contentType, JsonType) && o.json.value.message != "" then o.json.value.message else SentMessage
    ensures !Delivered(o) ==> r == s.(alert := Some(Alert(Danger, FailureText(o))), submitting := false)
  {
    match o
    case NetworkError => s.(alert := Some(Alert(Danger, NetworkMessage)), submitting := false)
    case Received(ok, contentType, json) =>
      var isJson := Includes(contentType, JsonType);
      if !isJson && ok then
        s.(alert := Some(Alert(Success, SentMessage)), form := EmptyForm, touched := false, submitting := false)
      else
        var data: Parsed<ReplyData> := if isJson then json else ParsedNull;
        if ok && data.Parsed? && data.value.success then
          var text := if data.value.message != "" then data.value.message else SentMessage;
          s.(alert := Some(Alert(Success, text)), form := EmptyForm, touched := false, submitting := false)
        else
          var text := if data.Parsed? && data.value.error != "" then data.value.error else GenericError;
          s.(alert := Some(Alert(Danger, text)), submitting := false)
  }

  /** A whole `submitForm`, given what the request would come to. */
  function Submit(s: State, o: Outcome): State {
    match Begin(s)
    case Settled(t) => t
    case Pending(t, _) => Settle(t, o)
  }

  /** Whatever a request comes to, the form is left with an alert and not
      submitting, and the form is cleared exactly when the send went through. */
  lemma SubmitSettles(s: State, o: Outcome)
    requires !s.submitting
    ensures var r := Submit(s, o);
      && !r.submitting && r.alert.Some?
      && (r.form == s.form || r.form == EmptyForm)
      && (r.alert.value.kind == Success <==> FieldsValid(s.form) && (s.form.website != "" || Delivered(o)))
  {
  }

  /** Validation comes first: a form with a filled honeypot but an invalid
      field is shown the error, not the fake success. */
  lemma ValidationBeforeHoneypot(s: State, o: Outcome)
    requires s.form.website != "" && !FieldsValid(s.form)
    ensures Submit(s, o).alert == Some(Alert(Danger, FixErrorsMessage))
  {
  }

  /** After a send went through the form is empty, so submitting again at once
      is stopped by validation and sends nothing. */
  lemma NoDoubleSend(s: State, o: Outcome)
    requires Begin(s).Pending? && Delivered(o)
    ensures Begin(Settle(Begin(s).state, o)).Settled?
  {
  }

  /** After a failed send the form is kept, so submitting again sends the same
      request. */
  lemma RetrySendsSameBody(s: State, o: Outcome)
    requires Begin(s).Pending? && !Delivered(o)
    ensures var t := Begin(Settle(Begin(s).state, o));
      t.Pending? && t.body == Begin(s).body
  {
  }

  /** What `mounted` does: the alert it sets and whether it cleans the URL. */
  datatype Landing = Landing(alert: Option<Alert>, cleanUrl: bool)

  /** `mounted`, given the `sent` and `error` query parameters (`None` when
      absent) and `decodeURIComponent`, which fails (`None`) on a malformed
      escape; that error is caught and ends `mounted` with no alert set. */
  function Mounted(sent: Option<string>, error: Option<string>, decode: string -> Option<string>): (m: Landing)
    ensures sent == Some("1") ==> m == Landing(Some(Alert(Success, RedirectSentMessage)), true)
    ensures sent == Some("0") ==>
      var raw := if error.Some? && error.value != "" then error.value else RedirectFailedMessage;
      m == if decode(raw).Some? then Landing(Some(Alert(Danger, decode(raw).value)), true) else Landing(None, false)
    ensures sent.Some? && sent.value != "1" && sent.value != "0" ==> m == Landing(None, true)
    ensures sent.None? ==> m == Landing(None, false)
  {
    match sent
    case None => Landing(None, false)
    case Some(v) =>
      if v == "1" then Landing(Some(Alert(Success, RedirectSentMessage)), true)
      else if v == "0" then
        var raw := error.GetOr("");
        var raw := if raw != "" then raw else RedirectFailedMessage;
        match decode(raw)
        case None => Landing(None, false)
        case Some(text) => Landing(Some(Alert(Danger, text)), true)
      else Landing(None, true)
  }

  /** An alert from the redirect is only ever shown together with cleaning
      the URL, and it is a success alert exactly for `sent=1`. */
  lemma MountedAlertCleans(sent: Option<string>, error: Option<string>, decode: string -> Option<string>)
    ensures var m := Mounted(sent, error, decode);
      && (m.alert.Some? ==> m.cleanUrl && sent.Some?)
      && (m.alert.Some? && m.alert.value.kind == Success <==> sent == Some("1"))
  {
  }

  /** The component as `mounted` leaves it. */
  function Load(sent: Option<string>, error: Option<string>, decode: string -> Option<string>): (s: State)
    ensures s.form == EmptyForm && !s.touched && !s.submitting
    ensures s.alert == Mounted(sent, error, decode).alert
  {
    Initial.(alert := Mounted(sent, error, decode).alert)
  }
}
